=== FILE: README.md ===
# Soy runtime sanitizers, modelled in Dafny

This project models the runtime sanitizer library of Closure Templates (Soy),
`Sanitizers.java`. The library has two parts.

* **The tag-balancing HTML stripper** (`stripHtmlTags`, `closeTags`,
  `HTML5_VOID_ELEMENTS`). It makes one left-to-right pass over a string.
  - Text between tag-like spans goes through an HTML normalizer.
  - Tags outside a whitelist are dropped.
  - Whitelisted tags are written back as bare, lower-case `<name>` or `</name>`.
  - A stack of open non-void tags is kept. A closer pops that stack down to its
    last match and closes everything opened after it. A closer with no match is
    dropped. Anything still open is closed at the end.
  - A text chunk ending in `&` right before a tag gets a raw `amp;` appended.
* **The trust gate and the dispatchers** (`escapeHtml`, `cleanHtml`,
  `escapeJsValue`, `filterHtmlAttributes`, `filterNoAutoescape`, …). Each one:
  - asks whether the value is sanitized content of the kind its output context
    needs (`isSanitizedContentOfKind`);
  - if so, passes it through or only re-normalizes it;
  - otherwise escapes the value's string form, or screens it with a validity
    filter whose rejection yields a fixed innocuous output.

## Modules

* `Strings` (strings.dfy)
  - `Option`, ASCII lower-casing and Java's `Character.isWhitespace`.
  - `List.lastIndexOf`.
  - `Transduce`, which applies a per-character escape to a string.
* `TagBalancing` (tag_balancing.dfy): the stripper.
  - The regular expression `HTML_TAG_CONTENT` belongs to the escaping conventions
    and is outside this model. Its matches arrive as a `Scanned` value: the text
    before the first match, then for each match the matched span, the tag name it
    extracted (if any) and the text up to the next match. `Source` reassembles the
    scanned string. `ScanOf` says that a scan is faithful: it reassembles its string,
    and every span runs from a `<` to a `>`.
  - The stripper produces a sequence of `Event`s: normalized text chunks, and
    opening and closing tags. `Render` concatenates them into the output string.
  - `TagStep` is what one match does to the output and to the stack of open tags.
  - `Run` is the loop.
  - `TextOf` is the text an event sequence writes. `DefusedText` is the reference
    for that text. It is defined on the scan alone: every chunk normalized, and a raw
    `amp;` after each chunk that ends in `&` and precedes a tag span.
* `Nesting` (nesting.dfy)
  - `Replay` is a stack machine that checks event sequences.
  - It proves that the stripper's output is well nested and balanced, never
    closes a void element, and names only whitelisted lower-case tags.
* `StrippedText` (stripped_text.dfy): what the stripper writes as text.
  - With any whitelist, the text written is the same as with none. Without a
    whitelist, the output is exactly that text.
  - A null whitelist writes no `<` or `>`.
  - The ampersand defence.
* `SafeSubset` (safe_subset.dfy): markup already in the stripper's output form comes
  back unchanged.
* `StrippingCases` (stripping_cases.dfy): worked inputs, computed step by step.
  - They use two small stand-in normalizers. `Entities` entity-escapes `& < > "`.
    `Angles` escapes only `< > "` and keeps `&`, as HTML normalization does.
* `Values` and `EscapingConventions` (values.dfy)
  - The values the sanitizers receive: null, number, boolean, string, and
    sanitized content with its `ContentKind`.
  - The escaping conventions the sanitizers consult. They are passed in as a
    `Conventions` record of functions: escapers, normalizers, filters with their
    innocuous outputs, the formatting-tag whitelist and the tag matcher.
  - `MatcherSound` says that the tag matcher scans every string faithfully.
* `Sanitizers` (sanitizers.dfy): the public sanitizers.
* `SanitizerProperties` (sanitizer_properties.dfy): properties that hold across
  the sanitizers.

## Model

| member | source | states |
|---|---|---|
| Strings.Lower | java/src/com/google/template/soy/shared/restricted/Sanitizers.java:553 | Lower-casing keeps the length, maps each character on its own and leaves no ASCII upper-case letter, so whitelist lookups are case-insensitive |
| Strings.LastIndexOf | java/src/com/google/template/soy/shared/restricted/Sanitizers.java:559-560 | The result is -1 exactly when the name is not on the stack; otherwise the stack holds the name there and nowhere after it |
| Strings.TransduceAppend | java/src/com/google/template/soy/shared/restricted/Sanitizers.java:526-540 | Normalizing two chunks one after the other gives the normalization of their concatenation, which is what writing chunk by chunk through the normalizing channel relies on |
| TagBalancing.CloseTags | java/src/com/google/template/soy/shared/restricted/Sanitizers.java:600-605 | One closer per open tag, the most recently opened first |
| TagBalancing.TagStep | java/src/com/google/template/soy/shared/restricted/Sanitizers.java:549-584 | A tag never writes text. These cases leave output and stack untouched: no whitelist, no extracted name, an unlisted name, or a closer whose name is not open. A whitelisted opener emits `<name>` and is pushed iff it is not void. A whitelisted closer whose name is open pops the stack to just below its last occurrence and closes exactly the popped tags, innermost first |
| TagBalancing.SafeName | java/src/com/google/template/soy/shared/restricted/Sanitizers.java:549-554 | A name comes back iff there is a whitelist, the pattern extracted a name, and its lower-cased form is on the whitelist. The name returned is exactly the lower-cased extracted name, so it is on the whitelist and is lower case |
| TagBalancing.TextEvents | java/src/com/google/template/soy/shared/restricted/Sanitizers.java:539-547 | An empty chunk writes nothing. A non-empty chunk writes only text: its normalization, then a raw `amp;` exactly when the chunk ends in `&` |
| TagBalancing.Run | java/src/com/google/template/soy/shared/restricted/Sanitizers.java:535-592 | Whatever the whitelist and the open tags, the text the loop writes is the defused text of the remaining chunks. Tag handling never adds, drops or reorders text |
| TagBalancing.StripEvents | java/src/com/google/template/soy/shared/restricted/Sanitizers.java:515-592 | The text of the stripper's output is the defused text content of the whole scan, for every whitelist |
| TagBalancing.NoAngleNoSpans | java/src/com/google/template/soy/shared/restricted/Sanitizers.java:520-524 | A faithful scan of a string without `<` finds no tag-like span, so the no-match branch applies |
| TagBalancing.StripHtmlTags | java/src/com/google/template/soy/shared/restricted/Sanitizers.java:515-524 | When the matcher finds no tag-like span, the result is the whole input through the normalizer that `rawSpacesAllowed` selects |
| Nesting.CloseTagsPopSuffix | java/src/com/google/template/soy/shared/restricted/Sanitizers.java:557-570 | Closing the tags above a point of the stack, innermost first, is accepted by the stack machine and leaves exactly the stack below that point |
| Nesting.RunClosesStack | java/src/com/google/template/soy/shared/restricted/Sanitizers.java:536-592 | From any stack of open tags, the rest of the pass is accepted by the stack machine and ends with nothing open |
| Nesting.StripIsWellNested | java/src/com/google/template/soy/shared/restricted/Sanitizers.java:587-592 | The output's tags are balanced: each closer matches the innermost open tag, and nothing is left open at the end |
| Nesting.ReplayNeverClosesVoid | java/src/com/google/template/soy/shared/restricted/Sanitizers.java:608-610 | No event sequence the stack machine accepts closes a void element |
| Nesting.StripNeverClosesVoid | java/src/com/google/template/soy/shared/restricted/Sanitizers.java:575-580 | The stripper never writes a closer for a void element such as `br` |
| Nesting.RunEmitsAdmittedTags | java/src/com/google/template/soy/shared/restricted/Sanitizers.java:549-592 | Every tag written from a given stack onward, closers included, is whitelisted and lower case |
| Nesting.StripEmitsOnlyAdmittedTags | java/src/com/google/template/soy/shared/restricted/Sanitizers.java:549-554 | Every tag in the output is whitelisted and lower case; with no whitelist the output is text only |
| StrippedText.RunWithoutWhitelistIsChunks | java/src/com/google/template/soy/shared/restricted/Sanitizers.java:549 | Without a whitelist, every event of the pass is a text chunk |
| StrippedText.RunWithoutWhitelistIsText | java/src/com/google/template/soy/shared/restricted/Sanitizers.java:535-587 | Without a whitelist, the rest of the pass writes exactly the defused text of the remaining chunks, `amp;` fragments included |
| StrippedText.DefusedTextWithoutAmp | java/src/com/google/template/soy/shared/restricted/Sanitizers.java:539-547 | When no chunk before a tag span ends in `&`, the defused text is the normalization of the text with every span cut out |
| StrippedText.NoWhitelistYieldsNormalizedText | java/src/com/google/template/soy/shared/restricted/Sanitizers.java:503-509 | A null whitelist drops every tag. The output is the defused text of the input. When no chunk before a tag span ends in `&`, that is the normalized input with the tag-like spans removed |
| StrippedText.RunSameTextContent | java/src/com/google/template/soy/shared/restricted/Sanitizers.java:536-592 | Same text content in the loop: with any whitelist and from any stack of open tags, the loop writes the text it writes with no whitelist and no open tags |
| StrippedText.SameTextContent | java/src/com/google/template/soy/shared/restricted/Sanitizers.java:503-505 | Same text content: with any whitelist, the text the stripper writes is what it writes with no whitelist. When no chunk before a tag span ends in `&`, that is the normalized input with the spans removed |
| StrippedText.RunWithoutWhitelistAvoids | java/src/com/google/template/soy/shared/restricted/Sanitizers.java:539-547 | Without a whitelist, every event the pass writes is a text chunk, and no chunk holds a character that the normalizer never writes and that `amp;` does not hold |
| StrippedText.NormalizerAvoids | java/src/com/google/template/soy/shared/restricted/Sanitizers.java:520-547 | With a null whitelist, a character that the normalizer never writes and that is not in `amp;` never appears in the output |
| StrippedText.NoWhitelistAvoids | java/src/com/google/template/soy/shared/restricted/Sanitizers.java:511-518 | `rawSpacesAllowed` picks the normalizer that decides the output, tag spans or not: with a null whitelist, a character that only the selected normalizer is known to avoid (and that is not in `amp;`) never appears |
| StrippedText.NoWhitelistNoTagDelimiters | java/src/com/google/template/soy/shared/restricted/Sanitizers.java:507-510 | With a null whitelist the output can sit in an attribute value. If the normalizers never write `<` or `>`, neither does the stripper, whatever tags the input holds |
| StrippedText.AmpDefense | java/src/com/google/template/soy/shared/restricted/Sanitizers.java:539-547 | A non-empty chunk ending in `&` before a tag span is written normalized and is followed directly by a raw `amp;`, before anything the tag emits and whatever the whitelist |
| StrippedText.AdjacentTagsWriteNoText | java/src/com/google/template/soy/shared/restricted/Sanitizers.java:539 | An empty chunk between adjacent tag spans writes nothing, not even `amp;` |
| StrippingCases.SplitEntityIsDefused | java/src/com/google/template/soy/shared/restricted/Sanitizers.java:542-546 | With a normalizer that keeps `&` and no whitelist, `&<b>amp;</b>` becomes `&amp;amp;`, not a live `&amp;` |
| StrippingCases.SplitEntityKeptTagIsDefused | java/src/com/google/template/soy/shared/restricted/Sanitizers.java:542-546 | With the same normalizer and `b` whitelisted, `&<b>amp;</b>` becomes `&amp;<b>amp;</b>`: the `&` before the kept tag is completed |
| StrippingCases.MisnestedTagsFailSafe | java/src/com/google/template/soy/shared/restricted/Sanitizers.java:561-568 | `<b><i>x</b>y</i>` becomes `<b><i>x</i></b>y`: closing `b` also closes the `i` inside it, and the later `</i>` is dropped |
| StrippingCases.VoidElementIsNotClosed | java/src/com/google/template/soy/shared/restricted/Sanitizers.java:574-580 | `<br>text` keeps `<br>` and gets no `</br>` at the end |
| StrippingCases.OpenTagIsNormalizedAndClosed | java/src/com/google/template/soy/shared/restricted/Sanitizers.java:572-592 | `<B class=x>bold` becomes `<b>bold</b>`: the name is lower-cased, the attributes are dropped and the tag left open is closed |
| StrippingCases.UnlistedTagIsDropped | java/src/com/google/template/soy/shared/restricted/Sanitizers.java:549-554 | `<script>x</script>y` becomes `xy` with `b` as the only whitelisted tag, and the same with no whitelist |
| StrippingCases.SafeListRoundTrips | java/src/com/google/template/soy/shared/restricted/Sanitizers.java:549-592 | `<ul><li>item</li></ul>` with `ul` and `li` whitelisted comes back unchanged |
| SafeSubset.BareStep | java/src/com/google/template/soy/shared/restricted/Sanitizers.java:555-581 | A bare whitelisted lower-case tag that a well-nested reading accepts is written back exactly as it is, and the stripper's stack moves as the reader's does |
| SafeSubset.RunReproducesSafeScan | java/src/com/google/template/soy/shared/restricted/Sanitizers.java:535-592 | From a stack that the remaining tags close exactly, the pass writes safe-subset markup back unchanged |
| SafeSubset.SafeSubsetRoundTrips | java/src/com/google/template/soy/shared/restricted/Sanitizers.java:503-505 | Round trip: markup whose tags are bare, whitelisted, lower case and well nested, whose text holds no `&` before a tag and is left alone by the normalizer, is returned unchanged |
| Values.OrdainedContentCoercesBack | java/src/com/google/template/soy/shared/restricted/Sanitizers.java:497-500 | A sanity check of the value model, no more: content ordained with a kind passes the trust gate for that kind and no other, and its string form is the ordained text |
| Sanitizers.Screen | java/src/com/google/template/soy/shared/restricted/Sanitizers.java:323-329 | A validity filter passes an accepted value through and replaces a rejected one by the innocuous output |
| Sanitizers.EscapeHtml | java/src/com/google/template/soy/shared/restricted/Sanitizers.java:63-68 | Trusted HTML is returned as it is; anything else is HTML-escaped from its string form |
| Sanitizers.CleanHtmlString | java/src/com/google/template/soy/shared/restricted/Sanitizers.java:115-118 | The result is HTML content: the input stripped down to the formatting tags, with raw spaces allowed |
| Sanitizers.CleanHtml | java/src/com/google/template/soy/shared/restricted/Sanitizers.java:85-95 | The result is always HTML content. Trusted HTML is returned as the very same value; anything else is cleaned from its string form |
| Sanitizers.EscapeHtmlRcdata | java/src/com/google/template/soy/shared/restricted/Sanitizers.java:124-134 | Trusted HTML is only normalized: it is neither stripped nor escaped. Anything else is HTML-escaped |
| Sanitizers.EscapeHtmlAttribute | java/src/com/google/template/soy/shared/restricted/Sanitizers.java:183-189 | Trusted HTML loses all its tags (no whitelist, raw spaces allowed); anything else is HTML-escaped |
| Sanitizers.EscapeHtmlAttributeNospace | java/src/com/google/template/soy/shared/restricted/Sanitizers.java:205-211 | As the quoted-attribute escaper, but spaces are normalized too and untrusted values use the no-space escaper |
| Sanitizers.EscapeJsString | java/src/com/google/template/soy/shared/restricted/Sanitizers.java:226-231 | Trusted JS string characters are returned as they are; anything else is JS-string-escaped |
| Sanitizers.EscapeJsValueString | java/src/com/google/template/soy/shared/restricted/Sanitizers.java:270-272 | A null string becomes ` null `; any other string becomes a single-quoted literal whose inside is exactly its JS-string escape |
| Sanitizers.EscapeJsValue | java/src/com/google/template/soy/shared/restricted/Sanitizers.java:246-264 | Null, numbers and booleans become space-padded literals. Trusted JS is returned as it is. Every other value becomes a quoted string literal |
| Sanitizers.FilterCssValueString | java/src/com/google/template/soy/shared/restricted/Sanitizers.java:323-329 | The result is the input when the CSS filter accepts it, else the innocuous output, and never anything else |
| Sanitizers.FilterCssValue | java/src/com/google/template/soy/shared/restricted/Sanitizers.java:311-316 | Trusted CSS passes, null becomes the empty string, and anything else is screened |
| Sanitizers.EscapeUri | java/src/com/google/template/soy/shared/restricted/Sanitizers.java:335-340 | A trusted URI is only re-normalized; anything else is percent-encoded |
| Sanitizers.FilterNormalizeUriString | java/src/com/google/template/soy/shared/restricted/Sanitizers.java:385-391 | An accepted URI is escaped by the filter's convention; a rejected one becomes the innocuous output |
| Sanitizers.FilterNormalizeUri | java/src/com/google/template/soy/shared/restricted/Sanitizers.java:373-378 | A trusted URI is only re-normalized; anything else is filtered |
| Sanitizers.FilterImageDataUri | java/src/com/google/template/soy/shared/restricted/Sanitizers.java:400-417 | The result is always URI content. It is the input unescaped when the filter accepts it, else the innocuous image URI. No kind is trusted |
| Sanitizers.SeparateAttributes | java/src/com/google/template/soy/shared/restricted/Sanitizers.java:432-439 | Exactly one space is appended iff the content is non-empty and its last character is not a quote or whitespace. So the result is empty or ends where another attribute may start |
| Sanitizers.FilterHtmlAttributesString | java/src/com/google/template/soy/shared/restricted/Sanitizers.java:448-454 | The result is the input when the attribute filter accepts it, else the innocuous output |
| Sanitizers.FilterHtmlAttributes | java/src/com/google/template/soy/shared/restricted/Sanitizers.java:424-442 | Trusted attributes get the separating space rule; anything else is screened |
| Sanitizers.FilterHtmlElementName | java/src/com/google/template/soy/shared/restricted/Sanitizers.java:460-474 | Element names are always screened: the result is the value's string form or the innocuous output |
| Sanitizers.FilterNoAutoescape | java/src/com/google/template/soy/shared/restricted/Sanitizers.java:483-491 | TEXT content is replaced by the innocuous output as a plain string; every other value is returned untouched; the result is never TEXT content |
| SanitizerProperties.TrustIsIdempotent | java/src/com/google/template/soy/shared/restricted/Sanitizers.java:63-66 | Content already sanitized for a sanitizer's own context comes back unchanged from escapeHtml, cleanHtml, escapeJsString, escapeJsValue, filterCssValue and filterNoAutoescape |
| SanitizerProperties.TrustRequiresExactKind | java/src/com/google/template/soy/shared/restricted/Sanitizers.java:497-500 | Content of any other kind is treated exactly like a plain string with the same text, by every gated sanitizer: escapeHtml, cleanHtml, escapeHtmlRcdata, both attribute escapers, escapeJsString, escapeJsValue, filterCssValue, escapeUri, filterNormalizeUri and filterHtmlAttributes |
| SanitizerProperties.ScreenIsIdempotent | java/src/com/google/template/soy/shared/restricted/Sanitizers.java:448-454 | If the innocuous output passes its own filter, every screened value passes, and screening twice is screening once |
| SanitizerProperties.SeparateAttributesIsIdempotent | java/src/com/google/template/soy/shared/restricted/Sanitizers.java:432-439 | The separating space is never added twice |
| SanitizerProperties.JsValueIsDelimited | java/src/com/google/template/soy/shared/restricted/Sanitizers.java:247-248 | Every untrusted JS value is wrapped in spaces or in single quotes, so it cannot run into a neighbouring identifier |
| SanitizerProperties.RcdataEmitsNoTags | java/src/com/google/template/soy/shared/restricted/Sanitizers.java:124-134 | Even trusted HTML keeps no tag in RCDATA: if the HTML escaper and normalizer never write `<` or `>`, the RCDATA sanitizer does not either, whatever the value's kind |
| SanitizerProperties.NospaceAttributeHasNoSpace | java/src/com/google/template/soy/shared/restricted/Sanitizers.java:201-211 | Fit for an unquoted attribute value: if the no-space escaper and no-space normalizer never write a space, the no-space attribute escaper writes none, trusted HTML with tags included |
| SanitizerProperties.AttributeHasNoQuote | java/src/com/google/template/soy/shared/restricted/Sanitizers.java:180-189 | Fit for a quoted attribute value: if the HTML escaper and normalizer never write `"`, the attribute escaper writes none, trusted HTML with tags included |
| SanitizerProperties.AttributeEscapersEmitNoTags | java/src/com/google/template/soy/shared/restricted/Sanitizers.java:183-211 | If the escapers and normalizers never write `<` or `>`, neither attribute escaper does, trusted HTML included |
| SanitizerProperties.CleanHtmlIsBalanced | java/src/com/google/template/soy/shared/restricted/Sanitizers.java:115-118 | Cleaned HTML is the rendering of a balanced, well-nested tag sequence made only of formatting tags in lower case |
| SanitizerProperties.FilterNoAutoescapeIsIdempotent | java/src/com/google/template/soy/shared/restricted/Sanitizers.java:483-491 | Filtering for no-autoescape twice is filtering once |
| SanitizerProperties.UngatedSanitizersIgnoreKind | java/src/com/google/template/soy/shared/restricted/Sanitizers.java:148-176 | The sanitizers without a trust gate treat content of every kind like a plain string: normalizeHtml, normalizeHtmlNospace, escapeJsRegex, escapeCssString, normalizeUri, filterImageDataUri and filterHtmlElementName |
| SanitizerProperties.TrustedContentIsOnlyNormalized | java/src/com/google/template/soy/shared/restricted/Sanitizers.java:124-134 | Trusted HTML in RCDATA is its plain normalization, and a trusted URI is normalized by both escapeUri and filterNormalizeUri |
| SanitizerProperties.CleanHtmlKeepsText | java/src/com/google/template/soy/shared/restricted/Sanitizers.java:115-118 | With a sound matcher, the text of cleaned HTML is the defused text content of its input. When no chunk before a tag ends in `&`, it is the normalized input with every tag-like span removed |
| SanitizerProperties.TagFreeHtmlIsOnlyNormalized | java/src/com/google/template/soy/shared/restricted/Sanitizers.java:520-524 | With a sound matcher, a string without `<` is only normalized by cleanHtml and by both attribute escapers of trusted HTML |
| SanitizerProperties.TaglessAttributeIsNormalized | java/src/com/google/template/soy/shared/restricted/Sanitizers.java:515-524 | For trusted HTML with no tag-like span, the two attribute escapers equal normalizeHtml and normalizeHtmlNospace |

## Left out

- The tables, patterns and innocuous outputs of `EscapingConventions` are not part
  of this model. This includes the `HTML_TAG_CONTENT` tag pattern and the
  `TagWhitelist` classes. Each is a field of `Conventions`, or an argument.
  - The tag matcher's output is an input to the stripper: a `Scanned` value.
  - A whitelist is a set of lower-case names.
- The HTML normalizers are modelled as per-character maps. The source streams
  chunks through a normalizing `Appendable`. That agrees with normalizing the
  whole string only for a per-character escaper.
- `CharEscapers.uriEscaper(false)` is a foreign library. It is the opaque field
  `uriEscaper`.
- `LOGGER` calls are diagnostics only and are left out.
- Java's `double`-to-string formatting in `escapeJsValue` is the abstract field
  `doubleToString`. Numbers are modelled as `real`.
- `coerceToString` of the data layer is not part of this model. The model uses:
  null gives `null`, a number is formatted by an abstract function, and a boolean
  gives `true` or `false`.
- The content direction (`Dir`) that `cleanHtml` carries along is left out. So is
  the inside of `UnsafeSanitizedContentOrdainer`. Ordaining is building a
  `SanitizedContent` value.
- Overloads are merged where one only delegates to the other.
  - The `String` overloads that only call one escaper are folded into their
    `SoyValue` overload, into its untrusted branch where it has one.
    - These call one escaping convention: `escapeHtml`, `escapeHtmlRcdata`,
      `normalizeHtml`, `normalizeHtmlNospace`, `escapeHtmlAttribute`,
      `escapeHtmlAttributeNospace`, `escapeJsString`, `escapeJsRegex`,
      `escapeCssString` and `normalizeUri`.
    - `escapeUri` calls `CharEscapers.uriEscaper(false)` instead, the field
      `uriEscaper`.
  - The `SoyValue` overloads of `filterImageDataUri` and `filterHtmlElementName`
    only coerce the value to a string and call the `String` overload. Each pair is
    therefore one function on `SoyValue`: `FilterImageDataUri` and
    `FilterHtmlElementName`. They hold the `String` overload's filter logic.
  - These `String` overloads have functions of their own, because the `SoyValue`
    overload does more than delegate: `cleanHtml` (`CleanHtmlString`),
    `escapeJsValue` (`EscapeJsValueString`), `filterCssValue`
    (`FilterCssValueString`), `filterNormalizeUri` (`FilterNormalizeUriString`)
    and `filterHtmlAttributes` (`FilterHtmlAttributesString`).
- Sanitizers.NormalizeHtml, Sanitizers.NormalizeHtmlNospace, Sanitizers.EscapeJsRegex, Sanitizers.EscapeCssString and Sanitizers.NormalizeUri carry no contract of their own. Each only calls one escaping convention. What they promise is stated in `SanitizerProperties.UngatedSanitizersIgnoreKind`.
- Strings are sequences of Unicode scalar values, not of UTF-16 code units as in
  Java. The characters the stripper looks at (`<`, `>`, `/`, `&` and the ASCII tag
  names) are single code units either way.
- Strings.JavaWhitespace: follows `Character.isWhitespace` as of JDK 9 (Unicode 6.3
  and later). Older JDKs also count U+180E MONGOLIAN VOWEL SEPARATOR, which is not in
  the set.
- Strings.Lower: lower-cases ASCII letters only. `toLowerCase(Locale.ENGLISH)`
  follows Unicode. For example, it maps the Kelvin sign U+212A to ASCII `k`. Tag
  names are what the tag pattern's first group captures, and that group matches
  only ASCII letters, digits, `:` and `-`. On such names the two agree. The pattern
  is not part of this model, so `Lower` does not state this restriction itself.
- The tag matcher is an argument, `Conventions.htmlTagContent`. The statements about
  what cleanHtml and the attribute escapers do with their input assume
  `MatcherSound` (or `ScanOf` for the one string). No other statement assumes it.
- The `IOException` branch of `stripHtmlTags` is left out. Writing to a
  `StringBuilder` does not throw. So is the builder's initial capacity.
- The other files of the repository are not part of this model: `MinFunction` and
  the bidi function tests.

=== FILE: nesting.dfy ===
/** Properties of the tag-balancing stripper: the tags it emits are well nested and
    balanced, are all whitelisted and lower-case, void elements are never closed, and
    without a whitelist nothing but normalized text (and `amp;` fragments) comes out. */
module Nesting {
  import opened Strings
  import opened TagBalancing

  /** The effect of one event on a stack of open elements, as an HTML reader would track
      it: text leaves it alone, a non-void opener pushes, a closer must name the innermost
      open element and pops it. */
  function Apply(e: Event, open: seq<string>): Option<seq<string>> {
    match e
    case Chunk(_) => Some(open)
    case Open(n) => if n in HTML5_VOID_ELEMENTS then Some(open) else Some(open + [n])
    case Close(n) => if |open| > 0 && open[|open| - 1] == n then Some(open[..|open| - 1]) else None
  }

  /** Replays events from a stack; `None` when some closer does not match. */
  function Replay(evs: seq<Event>, open: seq<string>): Option<seq<string>>
    decreases |evs|
  {
    if evs == [] then Some(open)
    else match Apply(evs[0], open)
      case None => None
      case Some(o) => Replay(evs[1..], o)
  }

  /** Every closer matches the innermost open element and nothing is left open. */
  predicate WellNested(evs: seq<Event>) {
    Replay(evs, []) == Some([])
  }

  function Then(r: Option<seq<string>>, evs: seq<Event>): Option<seq<string>> {
    match r
    case None => None
    case Some(o) => Replay(evs, o)
  }

  lemma {:induction false} ReplayAppend(a: seq<Event>, b: seq<Event>, open: seq<string>)
    ensures Replay(a + b, open) == Then(Replay(a, open), b)
    decreases |a|
  {
    if a == [] {
      assert a + b == b;
    } else {
      assert (a + b)[0] == a[0];
      assert (a + b)[1..] == a[1..] + b;
      match Apply(a[0], open)
      case None =>
      case Some(o) => ReplayAppend(a[1..], b, o);
    }
  }

  /** The closers `closeTags` emits for the top `suffix` of a stack pop exactly that suffix. */
  lemma {:induction false} CloseTagsPopSuffix(prefix: seq<string>, suffix: seq<string>)
    ensures Replay(CloseTags(suffix), prefix + suffix) == Some(prefix)
    decreases |suffix|
  {
    if suffix == [] {
      assert prefix + suffix == prefix;
    } else {
      var init := suffix[..|suffix| - 1];
      var whole := prefix + suffix;
      assert whole[|whole| - 1] == suffix[|suffix| - 1];
      assert whole[..|whole| - 1] == prefix + init;
      var evs := CloseTags(suffix);
      assert evs[0] == Close(suffix[|suffix| - 1]);
      assert evs[1..] == CloseTags(init);
      CloseTagsPopSuffix(prefix, init);
    }
  }

  lemma TextEventsKeepStack(norm: char -> string, t: string, open: seq<string>)
    ensures Replay(TextEvents(norm, t), open) == Some(open)
  {
    var evs := TextEvents(norm, t);
    if |evs| == 2 {
      assert evs[1..][1..] == [];
      assert Replay(evs[1..], open) == Replay(evs[1..][1..], open);
      assert Replay(evs, open) == Replay(evs[1..], open);
    } else if |evs| == 1 {
      assert evs[1..] == [];
      assert Replay(evs, open) == Replay(evs[1..], open);
    }
  }

  /** What one tag match emits takes the stack exactly to the stack the stripper keeps. */
  lemma TagStepReplays(safeTags: Option<set<string>>, t: TagMatch, open: seq<string>)
    ensures Replay(TagStep(safeTags, t, open).emitted, open) == Some(TagStep(safeTags, t, open).open)
  {
    var r := TagStep(safeTags, t, open);
    if SafeName(safeTags, t).Some? && IsCloseSpan(t.raw) && SafeName(safeTags, t).value in open {
      var k := |r.open|;
      assert open == open[..k] + open[k..];
      CloseTagsPopSuffix(open[..k], open[k..]);
    }
  }

  /** The loop, started from any stack, emits events that close exactly that stack. */
  lemma {:induction false} RunClosesStack(norm: char -> string, safeTags: Option<set<string>>,
                                          prev: string, pieces: seq<Piece>, open: seq<string>)
    ensures Replay(Run(norm, safeTags, prev, pieces, open), open) == Some([])
    decreases |pieces|
  {
    if |pieces| == 0 {
      assert open == [] + open;
      CloseTagsPopSuffix([], open);
      ReplayAppend([Chunk(Transduce(norm, prev))], CloseTags(open), open);
    } else {
      var step := TagStep(safeTags, pieces[0].tag, open);
      var te := TextEvents(norm, prev);
      var rest := Run(norm, safeTags, pieces[0].text, pieces[1..], step.open);
      TextEventsKeepStack(norm, prev, open);
      TagStepReplays(safeTags, pieces[0].tag, open);
      RunClosesStack(norm, safeTags, pieces[0].text, pieces[1..], step.open);
      ReplayAppend(te, step.emitted, open);
      ReplayAppend(te + step.emitted, rest, open);
    }
  }

  /** Balance: whatever the input and the whitelist, the stripper's tags are well nested
      and every opened non-void tag is closed. */
  lemma StripIsWellNested(norm: char -> string, safeTags: Option<set<string>>, sc: Scanned)
    ensures WellNested(StripEvents(norm, safeTags, sc))
  {
    if |sc.pieces| > 0 {
      RunClosesStack(norm, safeTags, sc.lead, sc.pieces, []);
    }
  }

  /** Replaying from a stack free of void elements never meets a closer for one. */
  lemma {:induction false} ReplayNeverClosesVoid(evs: seq<Event>, open: seq<string>)
    requires forall j :: 0 <= j < |open| ==> open[j] !in HTML5_VOID_ELEMENTS
    requires Replay(evs, open).Some?
    ensures forall i :: 0 <= i < |evs| && evs[i].Close? ==> evs[i].name !in HTML5_VOID_ELEMENTS
    decreases |evs|
  {
    if evs != [] {
      var o := Apply(evs[0], open).value;
      assert forall j :: 0 <= j < |o| ==> o[j] !in HTML5_VOID_ELEMENTS;
      ReplayNeverClosesVoid(evs[1..], o);
      forall i | 0 <= i < |evs| && evs[i].Close?
        ensures evs[i].name !in HTML5_VOID_ELEMENTS
      {
        if i > 0 {
          assert evs[i] == evs[1..][i - 1];
        }
      }
    }
  }

  /** Void elements are never closed: no `</br>` is ever synthesized. */
  lemma StripNeverClosesVoid(norm: char -> string, safeTags: Option<set<string>>, sc: Scanned)
    ensures forall e :: e in StripEvents(norm, safeTags, sc) && e.Close? ==> e.name !in HTML5_VOID_ELEMENTS
  {
    StripIsWellNested(norm, safeTags, sc);
    ReplayNeverClosesVoid(StripEvents(norm, safeTags, sc), []);
  }

  /** A tag name the stripper may emit: admitted by the whitelist and lower-case. */
  predicate Admitted(safeTags: Option<set<string>>, n: string) {
    safeTags.Some? && n in safeTags.value && IsLower(n)
  }

  predicate OnlyAdmittedTags(safeTags: Option<set<string>>, evs: seq<Event>) {
    forall e :: e in evs && !e.Chunk? ==> Admitted(safeTags, e.name)
  }

  lemma AdmittedAppend(safeTags: Option<set<string>>, a: seq<Event>, b: seq<Event>)
    requires OnlyAdmittedTags(safeTags, a) && OnlyAdmittedTags(safeTags, b)
    ensures OnlyAdmittedTags(safeTags, a + b)
  {
  }

  /** The closers for a stack of admitted names name only admitted tags. */
  lemma ClosersAdmitted(safeTags: Option<set<string>>, open: seq<string>)
    requires forall j :: 0 <= j < |open| ==> Admitted(safeTags, open[j])
    ensures OnlyAdmittedTags(safeTags, CloseTags(open))
  {
    var cl := CloseTags(open);
    forall e | e in cl && !e.Chunk? ensures Admitted(safeTags, e.name) {
      var k :| 0 <= k < |cl| && cl[k] == e;
      assert e.name == open[|open| - 1 - k];
    }
  }

  /** One tag step emits only admitted tags and keeps only admitted names on the stack. */
  lemma StepAdmits(safeTags: Option<set<string>>, t: TagMatch, open: seq<string>)
    requires forall j :: 0 <= j < |open| ==> Admitted(safeTags, open[j])
    ensures var step := TagStep(safeTags, t, open);
      && (forall j :: 0 <= j < |step.open| ==> Admitted(safeTags, step.open[j]))
      && OnlyAdmittedTags(safeTags, step.emitted)
  {
    var step := TagStep(safeTags, t, open);
    if SafeName(safeTags, t).Some? && IsCloseSpan(t.raw) && SafeName(safeTags, t).value in open {
      var rest := open[|step.open|..];
      assert forall j :: 0 <= j < |rest| ==> rest[j] == open[|step.open| + j];
      ClosersAdmitted(safeTags, rest);
    }
  }

  lemma {:induction false} RunEmitsAdmittedTags(norm: char -> string, safeTags: Option<set<string>>,
                                                prev: string, pieces: seq<Piece>, open: seq<string>)
    requires forall j :: 0 <= j < |open| ==> Admitted(safeTags, open[j])
    ensures OnlyAdmittedTags(safeTags, Run(norm, safeTags, prev, pieces, open))
    decreases |pieces|
  {
    if |pieces| == 0 {
      ClosersAdmitted(safeTags, open);
      AdmittedAppend(safeTags, [Chunk(Transduce(norm, prev))], CloseTags(open));
    } else {
      var step := TagStep(safeTags, pieces[0].tag, open);
      StepAdmits(safeTags, pieces[0].tag, open);
      var te := TextEvents(norm, prev);
      var later := Run(norm, safeTags, pieces[0].text, pieces[1..], step.open);
      RunEmitsAdmittedTags(norm, safeTags, pieces[0].text, pieces[1..], step.open);
      AdmittedAppend(safeTags, te, step.emitted);
      AdmittedAppend(safeTags, te + step.emitted, later);
    }
  }

  /** Every tag marker in the output names a whitelisted tag, in lower case; in particular
      without a whitelist no tag marker is emitted at all. */
  lemma StripEmitsOnlyAdmittedTags(norm: char -> string, safeTags: Option<set<string>>, sc: Scanned)
    ensures OnlyAdmittedTags(safeTags, StripEvents(norm, safeTags, sc))
    ensures safeTags.None? ==> forall e :: e in StripEvents(norm, safeTags, sc) ==> e.Chunk?
  {
    if |sc.pieces| > 0 {
      RunEmitsAdmittedTags(norm, safeTags, sc.lead, sc.pieces, []);
    }
  }
}

=== FILE: safe_subset.dfy ===
/** Markup already in the stripper's own output form comes back unchanged: when every
    tag-like span is a bare `<n>` or `</n>` with a lower-case whitelisted name, the spans
    nest properly, no chunk before a span ends in `&`, and the normalizer leaves the text
    alone, the stripper returns its input. */
module SafeSubset {
  import opened Strings
  import opened TagBalancing
  import opened Nesting

  /** The tag marker a span stands for; a span without a name stands for no tag. */
  function SpanEvent(t: TagMatch): Event {
    match t.name
    case None => Chunk(t.raw)
    case Some(n) => if IsCloseSpan(t.raw) then Close(n) else Open(n)
  }

  function SpanEvents(ps: seq<Piece>): seq<Event> {
    if ps == [] then [] else [SpanEvent(ps[0].tag)] + SpanEvents(ps[1..])
  }

  /** A span written exactly as the stripper writes tags: `<n>` or `</n>`, with `n` lower
      case and on the whitelist. */
  predicate BareTag(wl: set<string>, t: TagMatch) {
    && t.name.Some?
    && t.name.value in wl
    && IsLower(t.name.value)
    && t.raw == RenderEvent(SpanEvent(t))
  }

  /** A scan in the safe subset for a whitelist and a normalizer. */
  predicate SafeScan(norm: char -> string, wl: set<string>, prev: string, ps: seq<Piece>) {
    && (forall i :: 0 <= i < |ps| ==> BareTag(wl, ps[i].tag))
    && NoAmpBeforeTag(prev, ps)
    && Transduce(norm, prev) == prev
    && (forall i :: 0 <= i < |ps| ==> Transduce(norm, ps[i].text) == ps[i].text)
  }

  /** A bare whitelisted tag that the stack machine accepts is handled by the stripper
      exactly as the stack machine does: it is written back as it is, and the stack moves
      the same way. */
  lemma BareStep(wl: set<string>, t: TagMatch, open: seq<string>)
    requires BareTag(wl, t)
    requires Apply(SpanEvent(t), open).Some?
    ensures TagStep(Some(wl), t, open) == StepResult([SpanEvent(t)], Apply(SpanEvent(t), open).value)
  {
    var n := t.name.value;
    LowerFixesLower(n);
    assert SafeName(Some(wl), t) == Some(n);
    if IsCloseSpan(t.raw) {
      var last := |open| - 1;
      assert open[last] == n;
      var r := LastIndexOf(open, n);
      assert r == last;
      assert open[r..] == [n];
      assert CloseTags([n]) == [Close(n)];
    }
  }

  lemma Regroup(a: string, b: string, c: string, d: string)
    ensures (a + b) + (c + d) == a + ((b + c) + d)
  {
  }

  lemma {:induction false} RunReproducesSafeScan(norm: char -> string, wl: set<string>, prev: string,
                                                 ps: seq<Piece>, open: seq<string>)
    requires SafeScan(norm, wl, prev, ps)
    requires Replay(SpanEvents(ps), open) == Some([])
    ensures Render(Run(norm, Some(wl), prev, ps, open)) == prev + SpansAndTexts(ps)
    decreases |ps|
  {
    var evs := Run(norm, Some(wl), prev, ps, open);
    if |ps| == 0 {
      assert open == [];
      assert evs == [Chunk(prev)];
      assert Render(evs) == prev + Render(evs[1..]);
      assert prev + SpansAndTexts(ps) == prev + [];
    } else {
      var t := ps[0].tag;
      var spans := SpanEvents(ps);
      assert spans[0] == SpanEvent(t) && spans[1..] == SpanEvents(ps[1..]);
      var o := Apply(SpanEvent(t), open).value;
      BareStep(wl, t, open);
      var step := TagStep(Some(wl), t, open);
      assert SafeScan(norm, wl, ps[0].text, ps[1..]) by {
        assert Transduce(norm, ps[0].text) == ps[0].text;
        forall i | 0 <= i < |ps[1..]|
          ensures BareTag(wl, ps[1..][i].tag) && Transduce(norm, ps[1..][i].text) == ps[1..][i].text
        {
          assert ps[1..][i] == ps[i + 1];
        }
      }
      RunReproducesSafeScan(norm, wl, ps[0].text, ps[1..], o);
      var te := TextEvents(norm, prev);
      var rest := Run(norm, Some(wl), ps[0].text, ps[1..], o);
      assert Render(te) == prev by {
        assert AmpSuffix(prev) == [];
        assert prev + [] == prev;
      }
      assert Render(step.emitted) == t.raw by {
        assert step.emitted[1..] == [];
        assert t.raw + [] == t.raw;
      }
      assert evs == (te + step.emitted) + rest;
      RenderAppend(te + step.emitted, rest);
      RenderAppend(te, step.emitted);
      assert SpansAndTexts(ps) == t.raw + ps[0].text + SpansAndTexts(ps[1..]);
      Regroup(prev, t.raw, ps[0].text, SpansAndTexts(ps[1..]));
    }
  }

  /** Round trip of the safe subset: markup whose tags are bare, whitelisted, lower case and
      properly nested, and whose text the normalizer already leaves alone and holds no `&`
      before a tag, is returned unchanged. */
  lemma SafeSubsetRoundTrips(norm: char -> string, wl: set<string>, sc: Scanned)
    requires SafeScan(norm, wl, sc.lead, sc.pieces)
    requires WellNested(SpanEvents(sc.pieces))
    ensures Render(StripEvents(norm, Some(wl), sc)) == Source(sc)
  {
    if |sc.pieces| == 0 {
      var evs := StripEvents(norm, Some(wl), sc);
      assert Render(evs) == sc.lead + Render(evs[1..]);
      assert Source(sc) == sc.lead + [];
    } else {
      RunReproducesSafeScan(norm, wl, sc.lead, sc.pieces, []);
    }
  }
}

=== FILE: sanitizer_properties.dfy ===
/** Properties that hold across the sanitizers: trust is idempotent and exact, filters only
    ever let accepted values or the innocuous output through, attribute content always ends
    where another attribute may start, JS values are delimited, attribute escapers never
    write a tag delimiter, and cleaned HTML is balanced. */
module SanitizerProperties {
  import opened Strings
  import opened Values
  import opened EscapingConventions
  import opened TagBalancing
  import opened Sanitizers
  import Nesting
  import StrippedText

  /** Content already ordained for a sanitizer's own context comes back unchanged. */
  lemma TrustIsIdempotent(c: Conventions, s: string)
    ensures EscapeHtml(c, SanitizedContent(s, HTML)) == s
    ensures CleanHtml(c, SanitizedContent(s, HTML)) == SanitizedContent(s, HTML)
    ensures EscapeJsString(c, SanitizedContent(s, JS_STR_CHARS)) == s
    ensures EscapeJsValue(c, SanitizedContent(s, JS)) == s
    ensures FilterCssValue(c, SanitizedContent(s, CSS)) == s
    ensures forall k :: k != TEXT ==> FilterNoAutoescape(c, SanitizedContent(s, k)) == SanitizedContent(s, k)
  {
  }

  /** Trust is exact: content ordained for another context is escaped like a plain string. */
  lemma TrustRequiresExactKind(c: Conventions, s: string, k: ContentKind)
    ensures k != HTML ==> EscapeHtml(c, SanitizedContent(s, k)) == EscapeHtml(c, StringData(s))
    ensures k != JS_STR_CHARS ==> EscapeJsString(c, SanitizedContent(s, k)) == EscapeJsString(c, StringData(s))
    ensures k != JS ==> EscapeJsValue(c, SanitizedContent(s, k)) == EscapeJsValue(c, StringData(s))
    ensures k != CSS ==> FilterCssValue(c, SanitizedContent(s, k)) == FilterCssValue(c, StringData(s))
    ensures k != URI ==> EscapeUri(c, SanitizedContent(s, k)) == EscapeUri(c, StringData(s))
    ensures k != ATTRIBUTES ==> FilterHtmlAttributes(c, SanitizedContent(s, k)) == FilterHtmlAttributes(c, StringData(s))
    ensures k != HTML ==> EscapeHtmlRcdata(c, SanitizedContent(s, k)) == EscapeHtmlRcdata(c, StringData(s))
    ensures k != HTML ==> EscapeHtmlAttribute(c, SanitizedContent(s, k)) == EscapeHtmlAttribute(c, StringData(s))
    ensures k != HTML ==>
      EscapeHtmlAttributeNospace(c, SanitizedContent(s, k)) == EscapeHtmlAttributeNospace(c, StringData(s))
    ensures k != URI ==> FilterNormalizeUri(c, SanitizedContent(s, k)) == FilterNormalizeUri(c, StringData(s))
    ensures k != HTML ==> CleanHtml(c, SanitizedContent(s, k)) == CleanHtml(c, StringData(s))
  {
  }

  /** When the innocuous output itself passes the filter (as a fallback should), every
      screened result passes it, and screening twice is screening once. */
  lemma ScreenIsIdempotent(f: Filter, s: string)
    requires f.valueFilter(f.innocuousOutput)
    ensures f.valueFilter(Screen(f, s))
    ensures Screen(f, Screen(f, s)) == Screen(f, s)
  {
  }

  /** Re-applying the attribute separation rule adds nothing. */
  lemma SeparateAttributesIsIdempotent(content: string)
    ensures SeparateAttributes(SeparateAttributes(content)) == SeparateAttributes(content)
  {
    var r := SeparateAttributes(content);
    if |r| > 0 {
      assert EndsAttribute(r[|r| - 1]);
    }
  }

  /** Untrusted JS values are always wrapped in spaces or quotes, so they cannot run into an
      adjacent identifier or token. */
  lemma JsValueIsDelimited(c: Conventions, v: SoyValue)
    requires !IsSanitizedContentOfKind(v, JS)
    ensures var r := EscapeJsValue(c, v);
      && |r| >= 2
      && ((r[0] == ' ' && r[|r| - 1] == ' ') || (r[0] == '\'' && r[|r| - 1] == '\''))
  {
  }

  /** When the escapers and normalizers never write `<` or `>`, neither attribute escaper
      does, whether or not the value is trusted HTML. */
  lemma AttributeEscapersEmitNoTags(c: Conventions, v: SoyValue)
    requires forall d :: '<' !in c.normalizeHtml(d) && '>' !in c.normalizeHtml(d)
    requires forall d :: '<' !in c.normalizeHtmlNospace(d) && '>' !in c.normalizeHtmlNospace(d)
    requires forall s :: '<' !in c.escapeHtml(s) && '>' !in c.escapeHtml(s)
    requires forall s :: '<' !in c.escapeHtmlNospace(s) && '>' !in c.escapeHtmlNospace(s)
    ensures '<' !in EscapeHtmlAttribute(c, v) && '>' !in EscapeHtmlAttribute(c, v)
    ensures '<' !in EscapeHtmlAttributeNospace(c, v) && '>' !in EscapeHtmlAttributeNospace(c, v)
  {
    if IsSanitizedContentOfKind(v, HTML) {
      var sc := c.htmlTagContent(v.content);
      StrippedText.NoWhitelistNoTagDelimiters(sc, true, c.normalizeHtml, c.normalizeHtmlNospace);
      StrippedText.NoWhitelistNoTagDelimiters(sc, false, c.normalizeHtml, c.normalizeHtmlNospace);
    }
  }

  /** Even trusted HTML keeps no tag in RCDATA: when the escaper and the normalizer never
      write `<` or `>`, neither does the RCDATA sanitizer, whatever the value's kind. */
  lemma RcdataEmitsNoTags(c: Conventions, v: SoyValue)
    requires forall d :: '<' !in c.normalizeHtml(d) && '>' !in c.normalizeHtml(d)
    requires forall s :: '<' !in c.escapeHtml(s) && '>' !in c.escapeHtml(s)
    ensures '<' !in EscapeHtmlRcdata(c, v) && '>' !in EscapeHtmlRcdata(c, v)
  {
    if IsSanitizedContentOfKind(v, HTML) {
      TransduceAvoids(c.normalizeHtml, v.content, '<');
      TransduceAvoids(c.normalizeHtml, v.content, '>');
    }
  }

  /** An unquoted attribute value ends at a space, so the no-space attribute escaper writes
      no raw space when its escaper and the no-space normalizer never do, trusted HTML with
      tags included. */
  lemma NospaceAttributeHasNoSpace(c: Conventions, v: SoyValue)
    requires forall d :: ' ' !in c.normalizeHtmlNospace(d)
    requires forall s :: ' ' !in c.escapeHtmlNospace(s)
    ensures ' ' !in EscapeHtmlAttributeNospace(c, v)
  {
    if IsSanitizedContentOfKind(v, HTML) {
      StrippedText.NoWhitelistAvoids(c.htmlTagContent(v.content), false, c.normalizeHtml, c.normalizeHtmlNospace, ' ');
    }
  }

  /** A quoted attribute value ends at `"`, so the attribute escaper writes no `"` when its
      escaper and the HTML normalizer never do, trusted HTML with tags included. */
  lemma AttributeHasNoQuote(c: Conventions, v: SoyValue)
    requires forall d :: '"' !in c.normalizeHtml(d)
    requires forall s :: '"' !in c.escapeHtml(s)
    ensures '"' !in EscapeHtmlAttribute(c, v)
  {
    if IsSanitizedContentOfKind(v, HTML) {
      StrippedText.NoWhitelistAvoids(c.htmlTagContent(v.content), true, c.normalizeHtml, c.normalizeHtmlNospace, '"');
    }
  }

  /** Cleaned HTML is the rendering of a well-nested, balanced event sequence whose tags are
      all lower-case formatting tags. */
  lemma CleanHtmlIsBalanced(c: Conventions, s: string)
    ensures var evs := StripEvents(c.normalizeHtml, Some(c.formattingTags), c.htmlTagContent(s));
      && CleanHtmlString(c, s).content == Render(evs)
      && Nesting.WellNested(evs)
      && Nesting.OnlyAdmittedTags(Some(c.formattingTags), evs)
  {
    Nesting.StripIsWellNested(c.normalizeHtml, Some(c.formattingTags), c.htmlTagContent(s));
    Nesting.StripEmitsOnlyAdmittedTags(c.normalizeHtml, Some(c.formattingTags), c.htmlTagContent(s));
  }

  /** Filtering for no-autoescape is idempotent. */
  lemma FilterNoAutoescapeIsIdempotent(c: Conventions, v: SoyValue)
    ensures FilterNoAutoescape(c, FilterNoAutoescape(c, v)) == FilterNoAutoescape(c, v)
  {
  }

  /** The sanitizers without a trust gate treat sanitized content of every kind exactly like
      a plain string with the same text. */
  lemma UngatedSanitizersIgnoreKind(c: Conventions, s: string, k: ContentKind)
    ensures NormalizeHtml(c, SanitizedContent(s, k)) == NormalizeHtml(c, StringData(s))
    ensures NormalizeHtmlNospace(c, SanitizedContent(s, k)) == NormalizeHtmlNospace(c, StringData(s))
    ensures EscapeJsRegex(c, SanitizedContent(s, k)) == EscapeJsRegex(c, StringData(s))
    ensures EscapeCssString(c, SanitizedContent(s, k)) == EscapeCssString(c, StringData(s))
    ensures NormalizeUri(c, SanitizedContent(s, k)) == NormalizeUri(c, StringData(s))
    ensures FilterImageDataUri(c, SanitizedContent(s, k)) == FilterImageDataUri(c, StringData(s))
    ensures FilterHtmlElementName(c, SanitizedContent(s, k)) == FilterHtmlElementName(c, StringData(s))
  {
  }

  /** Trusted HTML in RCDATA is exactly its normalization, and trusted URIs are normalized
      whether escaped or filtered. */
  lemma TrustedContentIsOnlyNormalized(c: Conventions, s: string)
    ensures EscapeHtmlRcdata(c, SanitizedContent(s, HTML)) == NormalizeHtml(c, StringData(s))
    ensures EscapeUri(c, SanitizedContent(s, URI)) == NormalizeUri(c, StringData(s))
    ensures FilterNormalizeUri(c, SanitizedContent(s, URI)) == NormalizeUri(c, StringData(s))
  {
  }

  /** With a sound matcher, cleaned HTML keeps the text content of its input: the text it
      writes is the defused text of the scan of the input, and when no chunk before a tag
      ends in `&`, the normalization of the input with every tag-like span removed. */
  lemma CleanHtmlKeepsText(c: Conventions, s: string)
    requires MatcherSound(c)
    ensures var sc := c.htmlTagContent(s);
      var evs := StripEvents(c.normalizeHtml, Some(c.formattingTags), sc);
      && Source(sc) == s
      && CleanHtmlString(c, s).content == Render(evs)
      && TextOf(evs) == DefusedText(c.normalizeHtml, sc.lead, sc.pieces)
      && (NoAmpBeforeTag(sc.lead, sc.pieces) ==> TextOf(evs) == Transduce(c.normalizeHtml, TextContent(sc)))
  {
    var sc := c.htmlTagContent(s);
    assert ScanOf(sc, s);
    StrippedText.SameTextContent(c.normalizeHtml, Some(c.formattingTags), sc);
  }

  /** With a sound matcher, a string without `<` holds no tag: cleaning it and escaping it
      as trusted HTML for an attribute only normalize it. */
  lemma TagFreeHtmlIsOnlyNormalized(c: Conventions, s: string)
    requires MatcherSound(c)
    requires '<' !in s
    ensures CleanHtmlString(c, s).content == Transduce(c.normalizeHtml, s)
    ensures EscapeHtmlAttribute(c, SanitizedContent(s, HTML)) == NormalizeHtml(c, StringData(s))
    ensures EscapeHtmlAttributeNospace(c, SanitizedContent(s, HTML)) == NormalizeHtmlNospace(c, StringData(s))
  {
    assert ScanOf(c.htmlTagContent(s), s);
    NoAngleNoSpans(c.htmlTagContent(s), s);
    TaglessAttributeIsNormalized(c, s);
  }

  /** When the matcher finds no tag-like span in trusted HTML, and its scan reassembles the
      text, the attribute escapers come down to the HTML normalizers. */
  lemma TaglessAttributeIsNormalized(c: Conventions, s: string)
    requires c.htmlTagContent(s).pieces == []
    requires Source(c.htmlTagContent(s)) == s
    ensures EscapeHtmlAttribute(c, SanitizedContent(s, HTML)) == NormalizeHtml(c, StringData(s))
    ensures EscapeHtmlAttributeNospace(c, SanitizedContent(s, HTML)) == NormalizeHtmlNospace(c, StringData(s))
  {
  }
}

=== FILE: sanitizers.dfy ===
/** The public sanitizers of `Sanitizers.java`: each one first asks the trust gate whether the
    value is already sanitized content of the kind its context needs, passes such content
    through (or only re-normalizes it), and otherwise escapes the value's string form or
    screens it with a validity filter whose rejection yields a fixed innocuous output.

    Where `Sanitizers.java` overloads a sanitizer on `SoyValue` and on `String`, the `String`
    overload is the untrusted branch; it gets a function of its own (suffix `String`) only
    when it does more than call one escaping convention. */
module Sanitizers {
  import opened Strings
  import opened Values
  import opened EscapingConventions
  import opened TagBalancing

  /** The string form of a value (`coerceToString`). */
  function Str(c: Conventions, v: SoyValue): string {
    CoerceToString(v, c.coerceNumber)
  }

  /** A validity filter's verdict: the value itself when the filter finds it acceptable,
      else the convention's innocuous output. */
  function Screen(f: Filter, s: string): (r: string)
    ensures f.valueFilter(s) ==> r == s
    ensures !f.valueFilter(s) ==> r == f.innocuousOutput
  {
    if f.valueFilter(s) then s else f.innocuousOutput
  }

  // ---------------------------------------------------------------- HTML

  function EscapeHtml(c: Conventions, v: SoyValue): (r: string)
    ensures IsSanitizedContentOfKind(v, HTML) ==> r == v.content
    ensures !IsSanitizedContentOfKind(v, HTML) ==> r == c.escapeHtml(Str(c, v))
  {
    if IsSanitizedContentOfKind(v, HTML) then Str(c, v) else c.escapeHtml(Str(c, v))
  }

  /** `cleanHtml(String)`: strip all but the formatting tags, keep raw spaces, and ordain the
      result as HTML. */
  function CleanHtmlString(c: Conventions, s: string): (r: SoyValue)
    ensures IsSanitizedContentOfKind(r, HTML)
    ensures r.content == StripHtmlTags(c.htmlTagContent(s), Some(c.formattingTags), true,
                                       c.normalizeHtml, c.normalizeHtmlNospace)
  {
    SanitizedContent(
      StripHtmlTags(c.htmlTagContent(s), Some(c.formattingTags), true, c.normalizeHtml, c.normalizeHtmlNospace),
      HTML)
  }

  /** `cleanHtml(SoyValue)`: HTML content is returned as it is; anything else is cleaned. */
  function CleanHtml(c: Conventions, v: SoyValue): (r: SoyValue)
    ensures IsSanitizedContentOfKind(r, HTML)
    ensures IsSanitizedContentOfKind(v, HTML) ==> r == v
    ensures !IsSanitizedContentOfKind(v, HTML) ==> r == CleanHtmlString(c, Str(c, v))
  {
    if IsSanitizedContentOfKind(v, HTML) then v else CleanHtmlString(c, Str(c, v))
  }

  /** Inside RCDATA (e.g. a textarea) even trusted HTML may not keep its tags: it is only
      normalized. */
  function EscapeHtmlRcdata(c: Conventions, v: SoyValue): (r: string)
    ensures IsSanitizedContentOfKind(v, HTML) ==> r == Transduce(c.normalizeHtml, v.content)
    ensures !IsSanitizedContentOfKind(v, HTML) ==> r == c.escapeHtml(Str(c, v))
  {
    if IsSanitizedContentOfKind(v, HTML) then Transduce(c.normalizeHtml, Str(c, v))
    else c.escapeHtml(Str(c, v))
  }

  function NormalizeHtml(c: Conventions, v: SoyValue): string {
    Transduce(c.normalizeHtml, Str(c, v))
  }

  function NormalizeHtmlNospace(c: Conventions, v: SoyValue): string {
    Transduce(c.normalizeHtmlNospace, Str(c, v))
  }

  /** Trusted HTML loses every tag (no whitelist) so it fits in a quoted attribute value. */
  function EscapeHtmlAttribute(c: Conventions, v: SoyValue): (r: string)
    ensures IsSanitizedContentOfKind(v, HTML) ==>
      r == StripHtmlTags(c.htmlTagContent(v.content), None, true, c.normalizeHtml, c.normalizeHtmlNospace)
    ensures !IsSanitizedContentOfKind(v, HTML) ==> r == c.escapeHtml(Str(c, v))
  {
    if IsSanitizedContentOfKind(v, HTML) then
      StripHtmlTags(c.htmlTagContent(Str(c, v)), None, true, c.normalizeHtml, c.normalizeHtmlNospace)
    else c.escapeHtml(Str(c, v))
  }

  /** As `EscapeHtmlAttribute`, for an unquoted attribute value: spaces are escaped too. */
  function EscapeHtmlAttributeNospace(c: Conventions, v: SoyValue): (r: string)
    ensures IsSanitizedContentOfKind(v, HTML) ==>
      r == StripHtmlTags(c.htmlTagContent(v.content), None, false, c.normalizeHtml, c.normalizeHtmlNospace)
    ensures !IsSanitizedContentOfKind(v, HTML) ==> r == c.escapeHtmlNospace(Str(c, v))
  {
    if IsSanitizedContentOfKind(v, HTML) then
      StripHtmlTags(c.htmlTagContent(Str(c, v)), None, false, c.normalizeHtml, c.normalizeHtmlNospace)
    else c.escapeHtmlNospace(Str(c, v))
  }

  // ---------------------------------------------------------------- JavaScript

  function EscapeJsString(c: Conventions, v: SoyValue): (r: string)
    ensures IsSanitizedContentOfKind(v, JS_STR_CHARS) ==> r == v.content
    ensures !IsSanitizedContentOfKind(v, JS_STR_CHARS) ==> r == c.escapeJsString(Str(c, v))
  {
    if IsSanitizedContentOfKind(v, JS_STR_CHARS) then Str(c, v) else c.escapeJsString(Str(c, v))
  }

  /** `escapeJsValue(String)`: a quoted JS string literal, or ` null ` for a null string. */
  function EscapeJsValueString(c: Conventions, s: Option<string>): (r: string)
    ensures s.None? ==> r == " null "
    ensures s.Some? ==> |r| == |c.escapeJsString(s.value)| + 2
    ensures s.Some? ==> r[0] == '\'' && r[|r| - 1] == '\'' && r[1..|r| - 1] == c.escapeJsString(s.value)
  {
    match s
    case Some(t) => "'" + c.escapeJsString(t) + "'"
    case None => " null "
  }

  /** `escapeJsValue(SoyValue)`: null, numbers and booleans become space-padded literals,
      trusted JS passes through, and anything else becomes a quoted string literal. */
  function EscapeJsValue(c: Conventions, v: SoyValue): (r: string)
    ensures v.NullData? ==> r == " null "
    ensures v.NumberData? ==> r == " " + c.doubleToString(v.number) + " "
    ensures v.BooleanData? ==> r == (if v.flag then " true " else " false ")
    ensures IsSanitizedContentOfKind(v, JS) ==> r == v.content
    ensures (v.StringData? || (v.SanitizedContent? && v.kind != JS)) ==>
      r == "'" + c.escapeJsString(Str(c, v)) + "'"
  {
    match v
    case NullData => " null "
    case NumberData(n) => " " + c.doubleToString(n) + " "
    case BooleanData(b) => " " + BooleanString(b) + " "
    case _ =>
      if IsSanitizedContentOfKind(v, JS) then Str(c, v) else EscapeJsValueString(c, Some(Str(c, v)))
  }

  function EscapeJsRegex(c: Conventions, v: SoyValue): string {
    c.escapeJsRegex(Str(c, v))
  }

  // ---------------------------------------------------------------- CSS

  function EscapeCssString(c: Conventions, v: SoyValue): string {
    c.escapeCssString(Str(c, v))
  }

  function FilterCssValueString(c: Conventions, s: string): (r: string)
    ensures r == s || r == c.filterCssValue.innocuousOutput
    ensures r == s <== c.filterCssValue.valueFilter(s)
    ensures !c.filterCssValue.valueFilter(s) ==> r == c.filterCssValue.innocuousOutput
  {
    Screen(c.filterCssValue, s)
  }

  /** Trusted CSS passes, null becomes the empty string, anything else is screened. */
  function FilterCssValue(c: Conventions, v: SoyValue): (r: string)
    ensures IsSanitizedContentOfKind(v, CSS) ==> r == v.content
    ensures v.NullData? ==> r == ""
    ensures !IsSanitizedContentOfKind(v, CSS) && !v.NullData? ==> r == FilterCssValueString(c, Str(c, v))
  {
    if IsSanitizedContentOfKind(v, CSS) then Str(c, v)
    else if v.NullData? then ""
    else FilterCssValueString(c, Str(c, v))
  }

  // ---------------------------------------------------------------- URIs

  /** Trusted URI content is only re-normalized; anything else is percent-encoded whole. */
  function EscapeUri(c: Conventions, v: SoyValue): (r: string)
    ensures IsSanitizedContentOfKind(v, URI) ==> r == c.normalizeUri(v.content)
    ensures !IsSanitizedContentOfKind(v, URI) ==> r == c.uriEscaper(Str(c, v))
  {
    if IsSanitizedContentOfKind(v, URI) then NormalizeUri(c, v) else c.uriEscaper(Str(c, v))
  }

  function NormalizeUri(c: Conventions, v: SoyValue): string {
    c.normalizeUri(Str(c, v))
  }

  /** An acceptable URI is escaped by the filter's convention; any other (a dangerous scheme,
      say) becomes the innocuous URI. */
  function FilterNormalizeUriString(c: Conventions, s: string): (r: string)
    ensures c.filterNormalizeUri.valueFilter(s) ==> r == c.filterNormalizeUri.escape(s)
    ensures !c.filterNormalizeUri.valueFilter(s) ==> r == c.filterNormalizeUri.innocuousOutput
  {
    if c.filterNormalizeUri.valueFilter(s) then c.filterNormalizeUri.escape(s)
    else c.filterNormalizeUri.innocuousOutput
  }

  function FilterNormalizeUri(c: Conventions, v: SoyValue): (r: string)
    ensures IsSanitizedContentOfKind(v, URI) ==> r == c.normalizeUri(v.content)
    ensures !IsSanitizedContentOfKind(v, URI) ==> r == FilterNormalizeUriString(c, Str(c, v))
  {
    if IsSanitizedContentOfKind(v, URI) then NormalizeUri(c, v) else FilterNormalizeUriString(c, Str(c, v))
  }

  /** An image data URI is ordained as URI content unescaped; anything else is replaced by
      the innocuous image URI, also ordained.  No content kind is trusted here. */
  function FilterImageDataUri(c: Conventions, v: SoyValue): (r: SoyValue)
    ensures IsSanitizedContentOfKind(r, URI)
    ensures c.filterImageDataUri.valueFilter(Str(c, v)) ==> r.content == Str(c, v)
    ensures !c.filterImageDataUri.valueFilter(Str(c, v)) ==> r.content == c.filterImageDataUri.innocuousOutput
  {
    SanitizedContent(Screen(c.filterImageDataUri, Str(c, v)), URI)
  }

  // ---------------------------------------------------------------- attributes and names

  /** A character after which another attribute may directly follow. */
  predicate EndsAttribute(ch: char) {
    ch == '"' || ch == '\'' || JavaWhitespace(ch)
  }

  /** Trusted attribute content gets one trailing space unless it is empty or already ends
      in a quote or whitespace. */
  function SeparateAttributes(content: string): (r: string)
    ensures r == content || r == content + " "
    ensures r == content + " " <==> |content| > 0 && !EndsAttribute(content[|content| - 1])
    ensures |r| == 0 || EndsAttribute(r[|r| - 1])
    ensures |r| == 0 <==> |content| == 0
  {
    if |content| > 0 && !EndsAttribute(content[|content| - 1]) then content + " " else content
  }

  function FilterHtmlAttributesString(c: Conventions, s: string): (r: string)
    ensures r == s || r == c.filterHtmlAttributes.innocuousOutput
    ensures r == s <== c.filterHtmlAttributes.valueFilter(s)
    ensures !c.filterHtmlAttributes.valueFilter(s) ==> r == c.filterHtmlAttributes.innocuousOutput
  {
    Screen(c.filterHtmlAttributes, s)
  }

  function FilterHtmlAttributes(c: Conventions, v: SoyValue): (r: string)
    ensures IsSanitizedContentOfKind(v, ATTRIBUTES) ==> r == SeparateAttributes(v.content)
    ensures !IsSanitizedContentOfKind(v, ATTRIBUTES) ==> r == FilterHtmlAttributesString(c, Str(c, v))
  {
    if IsSanitizedContentOfKind(v, ATTRIBUTES) then SeparateAttributes(Str(c, v))
    else FilterHtmlAttributesString(c, Str(c, v))
  }

  /** Element names are always screened; no content kind is trusted here. */
  function FilterHtmlElementName(c: Conventions, v: SoyValue): (r: string)
    ensures r == Str(c, v) || r == c.filterHtmlElementName.innocuousOutput
    ensures c.filterHtmlElementName.valueFilter(Str(c, v)) ==> r == Str(c, v)
    ensures !c.filterHtmlElementName.valueFilter(Str(c, v)) ==> r == c.filterHtmlElementName.innocuousOutput
  {
    Screen(c.filterHtmlElementName, Str(c, v))
  }

  /** Content explicitly marked TEXT may never be printed unescaped: it is replaced by the
      innocuous output; every other value goes through untouched. */
  function FilterNoAutoescape(c: Conventions, v: SoyValue): (r: SoyValue)
    ensures IsSanitizedContentOfKind(v, TEXT) ==> r == StringData(c.innocuousOutput)
    ensures !IsSanitizedContentOfKind(v, TEXT) ==> r == v
    ensures !IsSanitizedContentOfKind(r, TEXT)
  {
    if IsSanitizedContentOfKind(v, TEXT) then StringData(c.innocuousOutput) else v
  }
}

=== FILE: strings.dfy ===
/** Character- and string-level helpers shared by the sanitizers: an optional value,
    ASCII lower-casing, Java's whitespace test, last-index search and per-character
    transduction (the shape of every normalizer the tag stripper streams text through). */
module Strings {

  /** An optional value, standing in for a Java reference that may be null. */
  datatype Option<+T> = None | Some(value: T)

  predicate IsAsciiUpper(c: char) {
    'A' <= c <= 'Z'
  }

  /** Lower-cases one character the way `toLowerCase(Locale.ENGLISH)` does on ASCII. */
  function LowerChar(c: char): (r: char)
    ensures !IsAsciiUpper(r)
    ensures IsAsciiUpper(c) ==> r as int == c as int + 32
    ensures !IsAsciiUpper(c) ==> r == c
  {
    if IsAsciiUpper(c) then (c as int + 32) as char else c
  }

  predicate IsLower(s: string) {
    forall i :: 0 <= i < |s| ==> !IsAsciiUpper(s[i])
  }

  /** ASCII lower-casing of a whole tag name. */
  function Lower(s: string): (r: string)
    ensures |r| == |s|
    ensures IsLower(r)
    ensures forall i :: 0 <= i < |s| ==> r[i] == LowerChar(s[i])
  {
    if s == [] then [] else [LowerChar(s[0])] + Lower(s[1..])
  }

  /** Lower-casing an already lower-case name changes nothing. */
  lemma {:induction false} LowerFixesLower(s: string)
    requires IsLower(s)
    ensures Lower(s) == s
  {
    if s != [] {
      assert IsLower(s[1..]);
      LowerFixesLower(s[1..]);
    }
  }

  /** `Character.isWhitespace` as of JDK 9 (Unicode 6.3 and later): the Unicode space,
      line and paragraph separators other than the three no-break spaces, plus the ASCII
      controls TAB, LF, VT, FF, CR and the four information separators U+001C..U+001F.
      Older JDKs also count U+180E MONGOLIAN VOWEL SEPARATOR, which Unicode 6.3 moved out
      of the space separators; it is not in this set. */
  predicate JavaWhitespace(c: char) {
    || c == ' ' || c == '\t' || c == '\n' || c == '\U{000B}' || c == '\U{000C}' || c == '\r'
    || ('\U{001C}' <= c <= '\U{001F}')
    || c == '\U{1680}'
    || ('\U{2000}' <= c <= '\U{2006}') || ('\U{2008}' <= c <= '\U{200A}')
    || c == '\U{2028}' || c == '\U{2029}' || c == '\U{205F}' || c == '\U{3000}'
  }

  /** The index of the last occurrence of `x` among the first `n` elements, or -1. */
  function LastIndexBelow(s: seq<string>, x: string, n: nat): (r: int)
    requires n <= |s|
    ensures -1 <= r < n
    ensures r == -1 <==> forall i :: 0 <= i < n ==> s[i] != x
    ensures 0 <= r ==> s[r] == x && forall i :: r < i < n ==> s[i] != x
    decreases n
  {
    if n == 0 then -1
    else if s[n - 1] == x then n - 1
    else LastIndexBelow(s, x, n - 1)
  }

  /** `List.lastIndexOf`: the index of the last occurrence of `x`, or -1. */
  function LastIndexOf(s: seq<string>, x: string): (r: int)
    ensures -1 <= r < |s|
    ensures r == -1 <==> x !in s
    ensures 0 <= r ==> s[r] == x && x !in s[r + 1..]
  {
    var r := LastIndexBelow(s, x, |s|);
    assert 0 <= r ==> x !in s[r + 1..] by {
      if 0 <= r {
        var rest := s[r + 1..];
        forall j | 0 <= j < |rest| ensures rest[j] != x {
          assert rest[j] == s[r + 1 + j];
        }
      }
    }
    r
  }

  /** Applies a per-character escape to every character and concatenates the pieces. */
  function Transduce(esc: char -> string, s: string): (r: string)
    ensures s == [] ==> r == []
  {
    if s == [] then [] else esc(s[0]) + Transduce(esc, s[1..])
  }

  /** Transducing is a homomorphism: escaping two chunks separately and appending the
      results gives the escape of their concatenation. */
  lemma {:induction false} TransduceAppend(esc: char -> string, a: string, b: string)
    ensures Transduce(esc, a + b) == Transduce(esc, a) + Transduce(esc, b)
  {
    if a == [] {
      assert a + b == b;
    } else {
      assert (a + b)[0] == a[0];
      assert (a + b)[1..] == a[1..] + b;
      TransduceAppend(esc, a[1..], b);
    }
  }

  /** A character that no per-character escape ever produces is absent from the result. */
  lemma {:induction false} TransduceAvoids(esc: char -> string, s: string, c: char)
    requires forall d :: c !in esc(d)
    ensures c !in Transduce(esc, s)
  {
    if s != [] {
      TransduceAvoids(esc, s[1..], c);
    }
  }
}

=== FILE: stripped_text.dfy ===
/** Properties of the text the tag-balancing stripper writes. Whatever the whitelist, it
    writes the same text as with none. Without a whitelist the output is exactly that
    text: the normalized text content of the input, with the `amp;` fragments. When the
    normalizer never writes `<` or `>`, that output holds neither. A text chunk ending
    in `&` right before a tag span is followed by a raw `amp;`. */
module StrippedText {
  import opened Strings
  import opened TagBalancing

  /** Without a whitelist every event is a text chunk. */
  lemma {:induction false} RunWithoutWhitelistIsChunks(norm: char -> string, prev: string, pieces: seq<Piece>)
    ensures forall e :: e in Run(norm, None, prev, pieces, []) ==> e.Chunk?
    decreases |pieces|
  {
    if |pieces| > 0 {
      RunWithoutWhitelistIsChunks(norm, pieces[0].text, pieces[1..]);
      assert Run(norm, None, prev, pieces, []) ==
        TextEvents(norm, prev) + [] + Run(norm, None, pieces[0].text, pieces[1..], []);
    }
  }

  /** Without a whitelist the rest of the pass writes exactly the defused text. */
  lemma RunWithoutWhitelistIsText(norm: char -> string, prev: string, pieces: seq<Piece>)
    ensures Render(Run(norm, None, prev, pieces, [])) == DefusedText(norm, prev, pieces)
  {
    RunWithoutWhitelistIsChunks(norm, prev, pieces);
    ChunksRenderAsText(Run(norm, None, prev, pieces, []));
  }

  /** When no chunk before a tag span ends in `&`, the defused text is just the
      normalization of the text with every span cut out. */
  lemma {:induction false} DefusedTextWithoutAmp(norm: char -> string, prev: string, pieces: seq<Piece>)
    requires NoAmpBeforeTag(prev, pieces)
    ensures DefusedText(norm, prev, pieces) == Transduce(norm, prev + Texts(pieces))
    decreases |pieces|
  {
    if |pieces| == 0 {
      assert prev + Texts(pieces) == prev;
    } else {
      var rest := pieces[0].text + Texts(pieces[1..]);
      DefusedTextWithoutAmp(norm, pieces[0].text, pieces[1..]);
      assert AmpSuffix(prev) == [];
      assert Transduce(norm, prev) + AmpSuffix(prev) == Transduce(norm, prev);
      TransduceAppend(norm, prev, rest);
    }
  }

  /** A null whitelist keeps the text content and drops every tag: the output is the
      defused text of the input, and when no chunk before a tag span ends in `&`, exactly
      the normalization of the input with the tag-like spans removed. */
  lemma NoWhitelistYieldsNormalizedText(norm: char -> string, sc: Scanned)
    ensures Render(StripEvents(norm, None, sc)) == DefusedText(norm, sc.lead, sc.pieces)
    ensures NoAmpBeforeTag(sc.lead, sc.pieces) ==>
      Render(StripEvents(norm, None, sc)) == Transduce(norm, TextContent(sc))
  {
    var evs := StripEvents(norm, None, sc);
    if |sc.pieces| == 0 {
      assert Render(evs) == Transduce(norm, sc.lead) + Render(evs[1..]);
    } else {
      RunWithoutWhitelistIsText(norm, sc.lead, sc.pieces);
    }
    if NoAmpBeforeTag(sc.lead, sc.pieces) {
      DefusedTextWithoutAmp(norm, sc.lead, sc.pieces);
    }
  }

  /** Same text content, one step of the loop at a time: from any stack of open tags and
      with any whitelist, the loop writes the text it writes with no whitelist and no
      open tags. */
  lemma RunSameTextContent(norm: char -> string, safeTags: Option<set<string>>,
                           prev: string, pieces: seq<Piece>, open: seq<string>)
    ensures TextOf(Run(norm, safeTags, prev, pieces, open)) == TextOf(Run(norm, None, prev, pieces, []))
  {
  }

  /** Same text content of a whole scan: with any whitelist the text the stripper writes is
      what it writes with none; when no chunk before a tag span ends in `&`, that is the
      normalized input with the spans removed. */
  lemma SameTextContent(norm: char -> string, safeTags: Option<set<string>>, sc: Scanned)
    ensures TextOf(StripEvents(norm, safeTags, sc)) == Render(StripEvents(norm, None, sc))
    ensures NoAmpBeforeTag(sc.lead, sc.pieces) ==>
      TextOf(StripEvents(norm, safeTags, sc)) == Transduce(norm, TextContent(sc))
  {
    NoWhitelistYieldsNormalizedText(norm, sc);
  }

  predicate ChunksAvoid(evs: seq<Event>, c: char) {
    forall e :: e in evs ==> e.Chunk? && c !in e.text
  }

  lemma {:induction false} RenderChunksAvoid(evs: seq<Event>, c: char)
    requires ChunksAvoid(evs, c)
    ensures c !in Render(evs)
    decreases |evs|
  {
    if evs != [] {
      assert evs[0] in evs;
      assert ChunksAvoid(evs[1..], c) by {
        forall e | e in evs[1..] ensures e in evs { }
      }
      RenderChunksAvoid(evs[1..], c);
    }
  }

  lemma {:induction false} RunWithoutWhitelistAvoids(norm: char -> string, c: char, prev: string,
                                                     pieces: seq<Piece>)
    requires forall d :: c !in norm(d)
    requires c !in "amp;"
    ensures ChunksAvoid(Run(norm, None, prev, pieces, []), c)
    decreases |pieces|
  {
    TransduceAvoids(norm, prev, c);
    if |pieces| > 0 {
      RunWithoutWhitelistAvoids(norm, c, pieces[0].text, pieces[1..]);
      assert Run(norm, None, prev, pieces, []) ==
        TextEvents(norm, prev) + [] + Run(norm, None, pieces[0].text, pieces[1..], []);
    }
  }

  /** With no whitelist, a character that neither the normalizer nor the added `amp;`
      writes never appears in the output. */
  lemma NormalizerAvoids(sc: Scanned, norm: char -> string, ch: char)
    requires forall d :: ch !in norm(d)
    requires ch !in "amp;"
    ensures ch !in Render(StripEvents(norm, None, sc))
  {
    if |sc.pieces| == 0 {
      TransduceAvoids(norm, sc.lead, ch);
    } else {
      RunWithoutWhitelistAvoids(norm, ch, sc.lead, sc.pieces);
    }
    RenderChunksAvoid(StripEvents(norm, None, sc), ch);
  }

  /** The normalizer `rawSpacesAllowed` selects is the one that decides the output: without
      a whitelist, a character that the selected normalizer never writes (and that is not in
      `amp;`) never appears, whatever tags the input holds and whatever the other normalizer
      does. */
  lemma NoWhitelistAvoids(sc: Scanned, rawSpacesAllowed: bool,
                          normalizeHtml: char -> string, normalizeHtmlNospace: char -> string, ch: char)
    requires ch !in "amp;"
    requires rawSpacesAllowed ==> forall d :: ch !in normalizeHtml(d)
    requires !rawSpacesAllowed ==> forall d :: ch !in normalizeHtmlNospace(d)
    ensures ch !in StripHtmlTags(sc, None, rawSpacesAllowed, normalizeHtml, normalizeHtmlNospace)
  {
    if rawSpacesAllowed {
      NormalizerAvoids(sc, normalizeHtml, ch);
    } else {
      NormalizerAvoids(sc, normalizeHtmlNospace, ch);
    }
  }

  /** No markup breakout: without a whitelist, when the selected normalizer never writes
      `<` or `>`, neither does the stripper, whatever tags the input holds. */
  lemma NoWhitelistNoTagDelimiters(sc: Scanned, rawSpacesAllowed: bool,
                                   normalizeHtml: char -> string, normalizeHtmlNospace: char -> string)
    requires forall d :: '<' !in normalizeHtml(d) && '>' !in normalizeHtml(d)
    requires forall d :: '<' !in normalizeHtmlNospace(d) && '>' !in normalizeHtmlNospace(d)
    ensures '<' !in StripHtmlTags(sc, None, rawSpacesAllowed, normalizeHtml, normalizeHtmlNospace)
    ensures '>' !in StripHtmlTags(sc, None, rawSpacesAllowed, normalizeHtml, normalizeHtmlNospace)
  {
    var norm := if rawSpacesAllowed then normalizeHtml else normalizeHtmlNospace;
    var evs := StripEvents(norm, None, sc);
    if |sc.pieces| == 0 {
      TransduceAvoids(norm, sc.lead, '<');
      TransduceAvoids(norm, sc.lead, '>');
    } else {
      RunWithoutWhitelistAvoids(norm, '<', sc.lead, sc.pieces);
      RunWithoutWhitelistAvoids(norm, '>', sc.lead, sc.pieces);
    }
    RenderChunksAvoid(evs, '<');
    RenderChunksAvoid(evs, '>');
  }

  /** The double-escape defense: a non-empty chunk ending in `&` right before a tag span is
      written normalized and then followed by a raw `amp;`, before anything the tag emits,
      whatever the whitelist. */
  lemma AmpDefense(norm: char -> string, safeTags: Option<set<string>>, prev: string,
                   pieces: seq<Piece>, open: seq<string>)
    requires |pieces| > 0
    requires EndsInAmp(prev)
    ensures
      var evs := Run(norm, safeTags, prev, pieces, open);
      && |evs| >= 2
      && evs[0] == Chunk(Transduce(norm, prev))
      && evs[1] == Chunk("amp;")
      && Render(evs) == Transduce(norm, prev) + ("amp;" + Render(evs[2..]))
  {
    var evs := Run(norm, safeTags, prev, pieces, open);
    var t := Transduce(norm, prev);
    assert TextEvents(norm, prev) == [Chunk(t), Chunk("amp;")];
    assert evs[0] == Chunk(t) && evs[1] == Chunk("amp;");
    var tail := evs[1..];
    assert tail[0] == evs[1] && tail[1..] == evs[2..];
    assert Render(evs) == t + Render(tail);
    assert Render(tail) == "amp;" + Render(evs[2..]);
  }

  /** An empty chunk between two adjacent tag spans writes nothing: the output goes straight
      on with what the tag emits. */
  lemma AdjacentTagsWriteNoText(norm: char -> string, safeTags: Option<set<string>>,
                                pieces: seq<Piece>, open: seq<string>)
    requires |pieces| > 0
    ensures
      var step := TagStep(safeTags, pieces[0].tag, open);
      Run(norm, safeTags, [], pieces, open) == step.emitted + Run(norm, safeTags, pieces[0].text, pieces[1..], step.open)
  {
    assert TextEvents(norm, []) == [];
  }
}

=== FILE: stripping_cases.dfy ===
/** Worked cases of the tag-balancing stripper, with two small stand-in normalizers:
    `Entities` entity-escapes `&`, `<`, `>` and `"`; `Angles` escapes only `<`, `>` and `"`
    and leaves `&` alone.  Both keep every other character.  Each case is computed one
    match at a time, from the last match back to the first. */
module StrippingCases {
  import opened Strings
  import opened TagBalancing
  import Nesting
  import SafeSubset

  function Entities(c: char): string {
    if c == '&' then "&amp;"
    else if c == '<' then "&lt;"
    else if c == '>' then "&gt;"
    else if c == '"' then "&quot;"
    else [c]
  }

  /** A normalizer that, like HTML normalization, leaves ampersands alone. */
  function Angles(c: char): string {
    if c == '<' then "&lt;"
    else if c == '>' then "&gt;"
    else if c == '"' then "&quot;"
    else [c]
  }

  function Tag(raw: string, name: string): TagMatch {
    TagMatch(raw, Some(name))
  }

  lemma RenderOne(e: Event)
    ensures Render([e]) == RenderEvent(e)
  {
    assert [e][1..] == [];
  }

  lemma RenderTwo(a: Event, b: Event)
    ensures Render([a, b]) == RenderEvent(a) + RenderEvent(b)
  {
    assert [a, b][1..] == [b];
    RenderOne(b);
  }

  /** The rendering of the loop's last step: the normalized tail, then the closers. */
  lemma RenderRunEnd(norm: char -> string, wl: Option<set<string>>, prev: string, open: seq<string>)
    ensures Render(Run(norm, wl, prev, [], open)) == Transduce(norm, prev) + Render(CloseTags(open))
  {
    var evs := Run(norm, wl, prev, [], open);
    assert evs[1..] == CloseTags(open);
  }

  /** One step of the loop renders as the text chunk, then what the tag emits, then the rest. */
  lemma RenderRunStep(norm: char -> string, wl: Option<set<string>>, prev: string,
                      pieces: seq<Piece>, open: seq<string>, step: StepResult,
                      textOut: string, tagOut: string, restOut: string)
    requires |pieces| > 0
    requires TagStep(wl, pieces[0].tag, open) == step
    requires Render(TextEvents(norm, prev)) == textOut
    requires Render(step.emitted) == tagOut
    requires Render(Run(norm, wl, pieces[0].text, pieces[1..], step.open)) == restOut
    ensures Render(Run(norm, wl, prev, pieces, open)) == textOut + tagOut + restOut
  {
    var te := TextEvents(norm, prev);
    var rest := Run(norm, wl, pieces[0].text, pieces[1..], step.open);
    assert Run(norm, wl, prev, pieces, open) == (te + step.emitted) + rest;
    RenderAppend(te + step.emitted, rest);
    RenderAppend(te, step.emitted);
  }

  lemma RenderPlainText(norm: char -> string, t: string)
    requires |t| > 0 && t[|t| - 1] != '&'
    ensures Render(TextEvents(norm, t)) == Transduce(norm, t)
  {
    RenderOne(Chunk(Transduce(norm, t)));
  }

  // Solver-sized pieces of the worked cases below, not properties of their own.  Each
  // states one fact about literal strings (a tag's spelling, a normalized word, a
  // concatenation) in a lemma of its own, so that proving it does not happen in the
  // larger context of a case.

  lemma BTags()
    ensures RenderEvent(Open("b")) == "<b>" && RenderEvent(Close("b")) == "</b>"
  {
  }

  lemma ITags()
    ensures RenderEvent(Open("i")) == "<i>" && RenderEvent(Close("i")) == "</i>"
  {
  }

  lemma BrTag()
    ensures RenderEvent(Open("br")) == "<br>"
  {
  }

  lemma AnglesKeepAmpSuffix() ensures Transduce(Angles, "amp;") == "amp;" {}
  lemma AnglesKeepAmpersand() ensures Transduce(Angles, "&") == "&" {}
  lemma NormalizedX() ensures Transduce(Entities, "x") == "x" {}
  lemma NormalizedY() ensures Transduce(Entities, "y") == "y" {}
  lemma NormalizedText() ensures Transduce(Entities, "text") == "text" {}
  lemma NormalizedBold() ensures Transduce(Entities, "bold") == "bold" {}
  lemma NormalizedItem() ensures Transduce(Entities, "item") == "item" {}
  lemma NormalizedEmpty() ensures Transduce(Entities, "") == "" {}
  lemma SplitEntityAfterOpenSpelling() ensures "amp;" + "</b>" + "" == "amp;</b>" {}
  lemma SplitEntityTailSpelling() ensures "amp;" + "" + "" == "amp;" {}

  lemma SplitEntitySpelling()
    ensures "&" + "amp;" == "&amp;"
    ensures "&amp;" + "" + "amp;" == "&amp;amp;"
    ensures "&amp;" + "<b>" + "amp;</b>" == "&amp;<b>amp;</b>"
  {
  }

  lemma MisnestedStraySpelling() ensures "y" + "" + "" == "y" {}

  lemma MisnestedOuterCloserSpelling()
    ensures "</i>" + "</b>" == "</i></b>"
    ensures "x" + "</i></b>" + "y" == "x</i></b>y"
  {
  }

  lemma MisnestedAfterFirstSpelling() ensures "" + "<i>" + "x</i></b>y" == "<i>x</i></b>y" {}
  lemma MisnestedSpelling() ensures "" + "<b>" + "<i>x</i></b>y" == "<b><i>x</i></b>y" {}
  lemma VoidSpelling() ensures "" + "<br>" + "text" == "<br>text" {}

  lemma UnclosedSpelling()
    ensures "bold" + "</b>" == "bold</b>"
    ensures "" + "<b>" + "bold</b>" == "<b>bold</b>"
  {
  }

  lemma UnlistedSpelling()
    ensures "x" + "" + "y" == "xy"
    ensures "" + "" + "xy" == "xy"
  {
  }

  /** How `StripHtmlTags` reads when the matcher found at least one tag-like span. */
  lemma StripRendersRun(norm: char -> string, sc: Scanned, wl: Option<set<string>>)
    requires |sc.pieces| > 0
    ensures StripHtmlTags(sc, wl, true, norm, norm) == Render(Run(norm, wl, sc.lead, sc.pieces, []))
  {
  }

  // ---------------------------------------------------------------- &<b>amp;</b>

  function SplitEntityPieces(): seq<Piece> {
    [Piece(Tag("<b>", "b"), "amp;"), Piece(Tag("</b>", "b"), "")]
  }

  lemma SplitEntitySource()
    ensures Source(Scanned("&", SplitEntityPieces())) == "&<b>amp;</b>"
  {
    var ps := SplitEntityPieces();
    assert SpansAndTexts(ps[1..]) == "</b>" + "" + SpansAndTexts([]);
    assert SpansAndTexts(ps) == "<b>" + "amp;" + SpansAndTexts(ps[1..]);
  }

  /** After `<b>`: the text `amp;`, then `</b>` closes the open `b`. */
  lemma SplitEntityAfterOpen(wl: Option<set<string>>, ps: seq<Piece>)
    requires wl == Some({"b"})
    requires ps == [Piece(Tag("</b>", "b"), "")]
    ensures Render(Run(Angles, wl, "amp;", ps, ["b"])) == "amp;</b>"
  {
    var step := StepResult([Close("b")], []);
    assert TagStep(wl, ps[0].tag, ["b"]) == step by {
      assert Lower("b") == "b";
      assert IsCloseSpan("</b>");
      assert LastIndexOf(["b"], "b") == 0;
    }
    assert Render(TextEvents(Angles, "amp;")) == "amp;" by {
      AnglesKeepAmpSuffix();
      RenderPlainText(Angles, "amp;");
    }
    assert Render(step.emitted) == "</b>" by {
      BTags();
      RenderOne(Close("b"));
    }
    assert Render(Run(Angles, wl, ps[0].text, ps[1..], step.open)) == "" by {
      assert ps[0].text == "" && ps[1..] == [];
      RenderRunEnd(Angles, wl, "", []);
    }
    RenderRunStep(Angles, wl, "amp;", ps, ["b"], step, "amp;", "</b>", "");
    SplitEntityAfterOpenSpelling();
  }

  /** With no whitelist, `</b>` is dropped after the text `amp;`. */
  lemma SplitEntityTailDropped(ps: seq<Piece>)
    requires ps == [Piece(Tag("</b>", "b"), "")]
    ensures Render(Run(Angles, None, "amp;", ps, [])) == "amp;"
  {
    var step := StepResult([], []);
    assert TagStep(None, ps[0].tag, []) == step;
    assert Render(TextEvents(Angles, "amp;")) == "amp;" by {
      AnglesKeepAmpSuffix();
      RenderPlainText(Angles, "amp;");
    }
    assert Render(Run(Angles, None, ps[0].text, ps[1..], step.open)) == "" by {
      assert ps[0].text == "" && ps[1..] == [];
      RenderRunEnd(Angles, None, "", []);
    }
    RenderRunStep(Angles, None, "amp;", ps, [], step, "amp;", "", "");
    SplitEntityTailSpelling();
  }

  /** The ampersand chunk ahead of the first span: `&`, which the normalizer keeps, then the
      `amp;` the stripper adds because the chunk ends in `&`. */
  lemma SplitEntityLead()
    ensures Render(TextEvents(Angles, "&")) == "&amp;"
  {
    AnglesKeepAmpersand();
    assert TextEvents(Angles, "&") == [Chunk("&"), Chunk("amp;")];
    RenderTwo(Chunk("&"), Chunk("amp;"));
    SplitEntitySpelling();
  }

  /** `&<b>amp;</b>` with no whitelist: dropping the tags must not splice `&` and `amp;`
      into a live `&amp;`, so the ampersand is followed by an extra `amp;` and the
      output reads `&amp;amp;`. */
  lemma SplitEntityIsDefused(sc: Scanned)
    requires sc == Scanned("&", SplitEntityPieces())
    ensures Source(sc) == "&<b>amp;</b>"
    ensures StripHtmlTags(sc, None, true, Angles, Angles) == "&amp;amp;"
  {
    SplitEntitySource();
    var ps := sc.pieces;
    var step := StepResult([], []);
    assert TagStep(None, ps[0].tag, []) == step;
    SplitEntityLead();
    SplitEntityTailDropped(ps[1..]);
    RenderRunStep(Angles, None, "&", ps, [], step, "&amp;", "", "amp;");
    SplitEntitySpelling();
    StripRendersRun(Angles, sc, None);
  }

  /** `&<b>amp;</b>` with `b` whitelisted: the ampersand still gets its `amp;`, so the
      output reads `&amp;<b>amp;</b>` and no `&` is left bare before a tag. */
  lemma SplitEntityKeptTagIsDefused(sc: Scanned)
    requires sc == Scanned("&", SplitEntityPieces())
    ensures StripHtmlTags(sc, Some({"b"}), true, Angles, Angles) == "&amp;<b>amp;</b>"
  {
    var wl := Some({"b"});
    var ps := sc.pieces;
    var step := StepResult([Open("b")], ["b"]);
    assert TagStep(wl, ps[0].tag, []) == step by {
      assert Lower("b") == "b";
      assert !IsCloseSpan("<b>");
    }
    SplitEntityLead();
    assert Render(step.emitted) == "<b>" by {
      BTags();
      RenderOne(Open("b"));
    }
    SplitEntityAfterOpen(wl, ps[1..]);
    RenderRunStep(Angles, wl, "&", ps, [], step, "&amp;", "<b>", "amp;</b>");
    SplitEntitySpelling();
    StripRendersRun(Angles, sc, wl);
  }

  // ---------------------------------------------------------------- <b><i>x</b>y</i>

  function MisnestedPieces(): seq<Piece> {
    [Piece(Tag("<b>", "b"), ""), Piece(Tag("<i>", "i"), "x"),
     Piece(Tag("</b>", "b"), "y"), Piece(Tag("</i>", "i"), "")]
  }

  lemma MisnestedSource()
    ensures Source(Scanned("", MisnestedPieces())) == "<b><i>x</b>y</i>"
  {
    var ps := MisnestedPieces();
    assert SpansAndTexts(ps[3..]) == "</i>" + "" + SpansAndTexts([]);
    assert SpansAndTexts(ps[2..]) == "</b>" + "y" + SpansAndTexts(ps[3..]);
    assert SpansAndTexts(ps[1..]) == "<i>" + "x" + SpansAndTexts(ps[2..]);
    assert SpansAndTexts(ps) == "<b>" + "" + SpansAndTexts(ps[1..]);
  }

  /** The stray `</i>` finds nothing open and is dropped. */
  lemma MisnestedStrayCloser(wl: Option<set<string>>, ps: seq<Piece>)
    requires wl == Some({"b", "i"})
    requires ps == [Piece(Tag("</i>", "i"), "")]
    ensures Render(Run(Entities, wl, "y", ps, [])) == "y"
  {
    var step := StepResult([], []);
    assert TagStep(wl, ps[0].tag, []) == step by {
      assert Lower("i") == "i";
      assert IsCloseSpan("</i>");
    }
    assert Render(TextEvents(Entities, "y")) == "y" by {
      NormalizedY();
      RenderPlainText(Entities, "y");
    }
    assert Render(Run(Entities, wl, ps[0].text, ps[1..], step.open)) == "" by {
      assert ps[0].text == "" && ps[1..] == [];
      RenderRunEnd(Entities, wl, "", []);
    }
    RenderRunStep(Entities, wl, "y", ps, [], step, "y", "", "");
    MisnestedStraySpelling();
  }

  /** `</b>` closes the `i` opened after it, then itself. */
  lemma MisnestedOuterCloser(wl: Option<set<string>>, ps: seq<Piece>)
    requires wl == Some({"b", "i"})
    requires ps == [Piece(Tag("</b>", "b"), "y"), Piece(Tag("</i>", "i"), "")]
    ensures Render(Run(Entities, wl, "x", ps, ["b", "i"])) == "x</i></b>y"
  {
    var step := StepResult([Close("i"), Close("b")], []);
    assert TagStep(wl, ps[0].tag, ["b", "i"]) == step by {
      assert Lower("b") == "b";
      assert IsCloseSpan("</b>");
      assert LastIndexOf(["b", "i"], "b") == 0;
      assert ["b", "i"][0..] == ["b", "i"];
      assert CloseTags(["b", "i"]) == [Close("i"), Close("b")];
    }
    assert Render(TextEvents(Entities, "x")) == "x" by {
      NormalizedX();
      RenderPlainText(Entities, "x");
    }
    assert Render(step.emitted) == "</i></b>" by {
      BTags();
      ITags();
      RenderTwo(Close("i"), Close("b"));
      MisnestedOuterCloserSpelling();
    }
    MisnestedStrayCloser(wl, ps[1..]);
    RenderRunStep(Entities, wl, "x", ps, ["b", "i"], step, "x", "</i></b>", "y");
    MisnestedOuterCloserSpelling();
  }

  /** `<i>` is whitelisted and pushed on top of `b`. */
  lemma MisnestedAfterFirst(wl: Option<set<string>>, ps: seq<Piece>)
    requires wl == Some({"b", "i"})
    requires ps == MisnestedPieces()[1..]
    ensures Render(Run(Entities, wl, "", ps, ["b"])) == "<i>x</i></b>y"
  {
    var step := StepResult([Open("i")], ["b", "i"]);
    assert TagStep(wl, ps[0].tag, ["b"]) == step by {
      assert Lower("i") == "i";
      assert !IsCloseSpan("<i>");
    }
    assert Render(step.emitted) == "<i>" by {
      ITags();
      RenderOne(Open("i"));
    }
    MisnestedOuterCloser(wl, ps[1..]);
    RenderRunStep(Entities, wl, "", ps, ["b"], step, "", "<i>", "x</i></b>y");
    MisnestedAfterFirstSpelling();
  }

  /** `<b><i>x</b>y</i>`: closing `b` also closes the `i` opened inside it, and the later
      `</i>` has nothing to close and is dropped. */
  lemma MisnestedTagsFailSafe(sc: Scanned)
    requires sc == Scanned("", MisnestedPieces())
    ensures Source(sc) == "<b><i>x</b>y</i>"
    ensures StripHtmlTags(sc, Some({"b", "i"}), true, Entities, Entities) == "<b><i>x</i></b>y"
  {
    MisnestedSource();
    var wl := Some({"b", "i"});
    var ps := sc.pieces;
    var step := StepResult([Open("b")], ["b"]);
    assert TagStep(wl, ps[0].tag, []) == step by {
      assert Lower("b") == "b";
      assert !IsCloseSpan("<b>");
    }
    assert Render(step.emitted) == "<b>" by {
      BTags();
      RenderOne(Open("b"));
    }
    MisnestedAfterFirst(wl, ps[1..]);
    RenderRunStep(Entities, wl, "", ps, [], step, "", "<b>", "<i>x</i></b>y");
    MisnestedSpelling();
    StripRendersRun(Entities, sc, wl);
  }

  // ---------------------------------------------------------------- <br>text

  function VoidPieces(): seq<Piece> {
    [Piece(Tag("<br>", "br"), "text")]
  }

  lemma VoidSource()
    ensures Source(Scanned("", VoidPieces())) == "<br>text"
  {
    assert SpansAndTexts(VoidPieces()) == "<br>" + "text" + SpansAndTexts([]);
  }

  /** `<br>text`: a void element is emitted but never tracked, so no `</br>` appears. */
  lemma VoidElementIsNotClosed(sc: Scanned)
    requires sc == Scanned("", VoidPieces())
    ensures Source(sc) == "<br>text"
    ensures StripHtmlTags(sc, Some({"br"}), true, Entities, Entities) == "<br>text"
  {
    VoidSource();
    var wl := Some({"br"});
    var ps := sc.pieces;
    var step := StepResult([Open("br")], []);
    assert TagStep(wl, ps[0].tag, []) == step by {
      assert Lower("br") == "br";
      assert !IsCloseSpan("<br>");
    }
    assert Render(step.emitted) == "<br>" by {
      BrTag();
      RenderOne(Open("br"));
    }
    assert Render(Run(Entities, wl, ps[0].text, ps[1..], step.open)) == "text" by {
      assert ps[0].text == "text" && ps[1..] == [];
      NormalizedText();
      RenderRunEnd(Entities, wl, "text", []);
    }
    RenderRunStep(Entities, wl, "", ps, [], step, "", "<br>", "text");
    VoidSpelling();
    StripRendersRun(Entities, sc, wl);
  }

  // ---------------------------------------------------------------- <B class=x>bold

  function UnclosedPieces(): seq<Piece> {
    [Piece(Tag("<B class=x>", "B"), "bold")]
  }

  lemma UnclosedSource()
    ensures Source(Scanned("", UnclosedPieces())) == "<B class=x>bold"
  {
    assert SpansAndTexts(UnclosedPieces()) == "<B class=x>" + "bold" + SpansAndTexts([]);
  }

  /** The text after `<b>`, then the closer for the `b` still open at the end. */
  lemma UnclosedTail(wl: Option<set<string>>)
    ensures Render(Run(Entities, wl, "bold", [], ["b"])) == "bold</b>"
  {
    NormalizedBold();
    assert CloseTags(["b"]) == [Close("b")];
    BTags();
    RenderOne(Close("b"));
    RenderRunEnd(Entities, wl, "bold", ["b"]);
    UnclosedSpelling();
  }

  /** Upper-case names are lower-cased, attributes are dropped, and a tag left open is
      closed at the end. */
  lemma OpenTagIsNormalizedAndClosed(sc: Scanned)
    requires sc == Scanned("", UnclosedPieces())
    ensures Source(sc) == "<B class=x>bold"
    ensures StripHtmlTags(sc, Some({"b"}), true, Entities, Entities) == "<b>bold</b>"
  {
    UnclosedSource();
    var wl := Some({"b"});
    var ps := sc.pieces;
    var step := StepResult([Open("b")], ["b"]);
    assert TagStep(wl, ps[0].tag, []) == step by {
      assert Lower("B") == "b";
      assert !IsCloseSpan("<B class=x>");
    }
    assert Render(step.emitted) == "<b>" by {
      BTags();
      RenderOne(Open("b"));
    }
    assert ps[0].text == "bold" && ps[1..] == [];
    UnclosedTail(wl);
    RenderRunStep(Entities, wl, "", ps, [], step, "", "<b>", "bold</b>");
    UnclosedSpelling();
    StripRendersRun(Entities, sc, wl);
  }

  // ---------------------------------------------------------------- <script>x</script>y

  function UnlistedPieces(): seq<Piece> {
    [Piece(Tag("<script>", "script"), "x"), Piece(Tag("</script>", "script"), "y")]
  }

  lemma UnlistedSource()
    ensures Source(Scanned("", UnlistedPieces())) == "<script>x</script>y"
  {
    var ps := UnlistedPieces();
    assert SpansAndTexts(ps[1..]) == "</script>" + "y" + SpansAndTexts([]);
    assert SpansAndTexts(ps) == "<script>" + "x" + SpansAndTexts(ps[1..]);
  }

  /** `script` is not on the whitelist, so its tags leave no trace. */
  lemma ScriptIsUnlisted(wl: Option<set<string>>, t: TagMatch)
    requires wl == Some({"b"}) || wl == None
    requires t.name == Some("script")
    ensures TagStep(wl, t, []) == StepResult([], [])
  {
    assert Lower("script") == "script";
  }

  /** The text inside `<script>` stays, normalized; `</script>` is dropped. */
  lemma UnlistedAfterOpen(wl: Option<set<string>>, ps: seq<Piece>)
    requires wl == Some({"b"}) || wl == None
    requires ps == [Piece(Tag("</script>", "script"), "y")]
    ensures Render(Run(Entities, wl, "x", ps, [])) == "xy"
  {
    var step := StepResult([], []);
    ScriptIsUnlisted(wl, ps[0].tag);
    assert Render(TextEvents(Entities, "x")) == "x" by {
      NormalizedX();
      RenderPlainText(Entities, "x");
    }
    assert Render(Run(Entities, wl, ps[0].text, ps[1..], [])) == "y" by {
      assert ps[0].text == "y" && ps[1..] == [];
      NormalizedY();
      RenderRunEnd(Entities, wl, "y", []);
    }
    RenderRunStep(Entities, wl, "x", ps, [], step, "x", "", "y");
    UnlistedSpelling();
  }

  /** `<script>x</script>y`: a tag outside the whitelist disappears while the text around
      it stays; with no whitelist at all the result is the same. */
  lemma UnlistedTagIsDropped(sc: Scanned, wl: Option<set<string>>)
    requires sc == Scanned("", UnlistedPieces())
    requires wl == Some({"b"}) || wl == None
    ensures Source(sc) == "<script>x</script>y"
    ensures StripHtmlTags(sc, wl, true, Entities, Entities) == "xy"
  {
    UnlistedSource();
    var ps := sc.pieces;
    var step := StepResult([], []);
    ScriptIsUnlisted(wl, ps[0].tag);
    UnlistedAfterOpen(wl, ps[1..]);
    RenderRunStep(Entities, wl, "", ps, [], step, "", "", "xy");
    UnlistedSpelling();
    StripRendersRun(Entities, sc, wl);
  }

  // ---------------------------------------------------------------- <ul><li>item</li></ul>

  function ListPieces(): seq<Piece> {
    [Piece(Tag("<ul>", "ul"), ""), Piece(Tag("<li>", "li"), "item"),
     Piece(Tag("</li>", "li"), ""), Piece(Tag("</ul>", "ul"), "")]
  }

  lemma ListSource()
    ensures Source(Scanned("", ListPieces())) == "<ul><li>item</li></ul>"
  {
    var ps := ListPieces();
    assert SpansAndTexts(ps[3..]) == "</ul>" + "" + SpansAndTexts([]);
    assert SpansAndTexts(ps[2..]) == "</li>" + "" + SpansAndTexts(ps[3..]);
    assert SpansAndTexts(ps[1..]) == "<li>" + "item" + SpansAndTexts(ps[2..]);
    assert SpansAndTexts(ps) == "<ul>" + "" + SpansAndTexts(ps[1..]);
  }

  lemma ListTagsAreBare(ps: seq<Piece>)
    requires ps == ListPieces()
    ensures forall i :: 0 <= i < |ps| ==> SafeSubset.BareTag({"ul", "li"}, ps[i].tag)
  {
    assert IsLower("ul") && IsLower("li");
    assert !IsCloseSpan("<ul>") && !IsCloseSpan("<li>");
    assert IsCloseSpan("</li>") && IsCloseSpan("</ul>");
    assert RenderEvent(Open("ul")) == "<ul>" && RenderEvent(Open("li")) == "<li>";
    assert RenderEvent(Close("li")) == "</li>" && RenderEvent(Close("ul")) == "</ul>";
  }

  lemma ListTextIsNormal(ps: seq<Piece>)
    requires ps == ListPieces()
    ensures forall i :: 0 <= i < |ps| ==> Transduce(Entities, ps[i].text) == ps[i].text
  {
    NormalizedItem();
    NormalizedEmpty();
  }

  lemma ListHasNoAmp(ps: seq<Piece>)
    requires ps == ListPieces()
    ensures NoAmpBeforeTag("", ps)
  {
    assert NoAmpBeforeTag("", ps[3..][1..]);
    assert NoAmpBeforeTag("", ps[2..][1..]);
    assert NoAmpBeforeTag("item", ps[1..][1..]);
    assert NoAmpBeforeTag("", ps[1..]);
  }

  lemma ListSpans(ps: seq<Piece>)
    requires ps == ListPieces()
    ensures SafeSubset.SpanEvents(ps) == [Open("ul"), Open("li"), Close("li"), Close("ul")]
  {
    assert SafeSubset.SpanEvents(ps[3..]) == [Close("ul")] + SafeSubset.SpanEvents([]);
    assert SafeSubset.SpanEvents(ps[2..]) == [Close("li")] + SafeSubset.SpanEvents(ps[3..]);
    assert SafeSubset.SpanEvents(ps[1..]) == [Open("li")] + SafeSubset.SpanEvents(ps[2..]);
    assert SafeSubset.SpanEvents(ps) == [Open("ul")] + SafeSubset.SpanEvents(ps[1..]);
  }

  /** The list's tags replayed one at a time, from the last back to the first. */
  lemma ListReplays(evs: seq<Event>)
    requires evs == [Open("ul"), Open("li"), Close("li"), Close("ul")]
    ensures Nesting.WellNested(evs)
  {
    var ul := ["ul"];
    var li := ul + ["li"];
    assert li[..|li| - 1] == ul && ul[..|ul| - 1] == [];
    assert Nesting.Replay(evs[3..], ul) == Some([]) by {
      assert evs[3..][1..] == [];
    }
    assert Nesting.Replay(evs[2..], li) == Some([]) by {
      assert evs[2..][1..] == evs[3..];
    }
    assert Nesting.Replay(evs[1..], ul) == Some([]) by {
      assert evs[1..][1..] == evs[2..];
    }
    var empty: seq<string> := [];
    assert empty + ["ul"] == ul;
    assert Nesting.Apply(evs[0], empty) == Some(ul);
  }

  lemma ListIsWellNested(ps: seq<Piece>)
    requires ps == ListPieces()
    ensures Nesting.WellNested(SafeSubset.SpanEvents(ps))
  {
    ListSpans(ps);
    ListReplays(SafeSubset.SpanEvents(ps));
  }

  /** `<ul><li>item</li></ul>` with `ul` and `li` whitelisted comes back unchanged. */
  lemma SafeListRoundTrips(sc: Scanned)
    requires sc == Scanned("", ListPieces())
    ensures Source(sc) == "<ul><li>item</li></ul>"
    ensures StripHtmlTags(sc, Some({"ul", "li"}), true, Entities, Entities) == "<ul><li>item</li></ul>"
  {
    ListSource();
    ListTagsAreBare(sc.pieces);
    ListTextIsNormal(sc.pieces);
    ListHasNoAmp(sc.pieces);
    ListIsWellNested(sc.pieces);
    NormalizedEmpty();
    SafeSubset.SafeSubsetRoundTrips(Entities, {"ul", "li"}, sc);
    StripRendersRun(Entities, sc, Some({"ul", "li"}));
  }
}

=== FILE: tag_balancing.dfy ===
/** The HTML tag-balancing stripper `Sanitizers.stripHtmlTags` and its helper `closeTags`.

    The tag pattern itself belongs to the escaping conventions, so the stripper here starts
    from the pattern's matches: a `Scanned` value is the text before the first match followed
    by one `Piece` per match (the span as written, its extracted tag name, and the text up to
    the next match).  The stripper produces a sequence of `Event`s (normalized text chunks and
    bare tag markers); `Render` concatenates them into the string `stripHtmlTags` returns. */
module TagBalancing {
  import opened Strings

  /** One match of the tag pattern: the matched span as written and the tag name the
      pattern's first group captured, if any. */
  datatype TagMatch = TagMatch(raw: string, name: Option<string>)

  /** The matched span closes a tag when the character after its `<` is `/`. */
  predicate IsCloseSpan(raw: string) {
    |raw| > 1 && raw[1] == '/'
  }

  /** A tag match and the text that follows it up to the next match (or the end). */
  datatype Piece = Piece(tag: TagMatch, text: string)

  /** A string cut at every match of the tag pattern. */
  datatype Scanned = Scanned(lead: string, pieces: seq<Piece>)

  function SpansAndTexts(ps: seq<Piece>): string {
    if ps == [] then [] else ps[0].tag.raw + ps[0].text + SpansAndTexts(ps[1..])
  }

  /** The string that was scanned. */
  function Source(sc: Scanned): string {
    sc.lead + SpansAndTexts(sc.pieces)
  }

  function Texts(ps: seq<Piece>): string {
    if ps == [] then [] else ps[0].text + Texts(ps[1..])
  }

  /** The scanned string with every tag-like span removed. */
  function TextContent(sc: Scanned): string {
    sc.lead + Texts(sc.pieces)
  }

  /** A span the tag pattern can match: it runs from a `<` to a `>`. */
  predicate TagLike(raw: string) {
    |raw| >= 2 && raw[0] == '<' && raw[|raw| - 1] == '>'
  }

  /** `sc` is a faithful scan of `s`: it reassembles `s`, and every span it reports is
      tag-like. */
  predicate ScanOf(sc: Scanned, s: string) {
    && Source(sc) == s
    && forall i :: 0 <= i < |sc.pieces| ==> TagLike(sc.pieces[i].tag.raw)
  }

  /** A string without `<` holds no tag-like span, so a faithful scan of it finds none. */
  lemma NoAngleNoSpans(sc: Scanned, s: string)
    requires ScanOf(sc, s)
    requires '<' !in s
    ensures sc.pieces == []
  {
  }

  /** The HTML5 void elements: tags that never have content and so are never closed. */
  const HTML5_VOID_ELEMENTS: set<string> := {
    "area", "base", "br", "col", "command", "embed", "hr", "img", "input", "keygen", "link",
    "meta", "param", "source", "track", "wbr"
  }

  /** What the stripper writes: normalized (or raw `amp;`) text, or a bare tag marker. */
  datatype Event = Chunk(text: string) | Open(name: string) | Close(name: string)

  function RenderEvent(e: Event): string {
    match e
    case Chunk(t) => t
    case Open(n) => "<" + n + ">"
    case Close(n) => "</" + n + ">"
  }

  function Render(evs: seq<Event>): string {
    if evs == [] then [] else RenderEvent(evs[0]) + Render(evs[1..])
  }

  /** The text an event sequence writes, with every tag marker left out. */
  function TextOf(evs: seq<Event>): string {
    if evs == [] then [] else (if evs[0].Chunk? then evs[0].text else []) + TextOf(evs[1..])
  }

  /** Tag markers only: events that write no text. */
  predicate Markers(evs: seq<Event>) {
    forall e :: e in evs ==> !e.Chunk?
  }

  lemma {:induction false} TextOfAppend(a: seq<Event>, b: seq<Event>)
    ensures TextOf(a + b) == TextOf(a) + TextOf(b)
  {
    if a == [] {
      assert a + b == b;
    } else {
      assert (a + b)[0] == a[0];
      assert (a + b)[1..] == a[1..] + b;
      TextOfAppend(a[1..], b);
    }
  }

  lemma {:induction false} MarkersWriteNoText(evs: seq<Event>)
    requires Markers(evs)
    ensures TextOf(evs) == []
  {
    if evs != [] {
      assert evs[0] in evs;
      assert Markers(evs[1..]) by {
        forall e | e in evs[1..] ensures e in evs { }
      }
      MarkersWriteNoText(evs[1..]);
    }
  }

  /** For a sequence of text chunks the rendering is the text. */
  lemma {:induction false} ChunksRenderAsText(evs: seq<Event>)
    requires forall e :: e in evs ==> e.Chunk?
    ensures Render(evs) == TextOf(evs)
  {
    if evs != [] {
      assert evs[0] in evs;
      assert forall e :: e in evs[1..] ==> e in evs;
      ChunksRenderAsText(evs[1..]);
    }
  }

  lemma {:induction false} RenderAppend(a: seq<Event>, b: seq<Event>)
    ensures Render(a + b) == Render(a) + Render(b)
  {
    if a == [] {
      assert a + b == b;
    } else {
      assert (a + b)[0] == a[0];
      assert (a + b)[1..] == a[1..] + b;
      RenderAppend(a[1..], b);
    }
  }

  /** `closeTags`: one closer per open tag, innermost (last opened) first. */
  function CloseTags(open: seq<string>): (r: seq<Event>)
    ensures |r| == |open|
    ensures forall k :: 0 <= k < |r| ==> r[k] == Close(open[|open| - 1 - k])
  {
    if open == [] then [] else [Close(open[|open| - 1])] + CloseTags(open[..|open| - 1])
  }

  predicate EndsInAmp(t: string) {
    |t| > 0 && t[|t| - 1] == '&'
  }

  /** What the ampersand defence adds after a chunk that precedes a tag span. */
  function AmpSuffix(t: string): string {
    if EndsInAmp(t) then "amp;" else ""
  }

  /** No text chunk that immediately precedes a tag span ends in `&`. */
  predicate NoAmpBeforeTag(prev: string, pieces: seq<Piece>)
    decreases |pieces|
  {
    |pieces| == 0 || (!EndsInAmp(prev) && NoAmpBeforeTag(pieces[0].text, pieces[1..]))
  }

  /** The text content the stripper keeps of the chunk `prev` and the pieces after it,
      independent of any tag handling: every chunk normalized, each chunk that ends in `&`
      and precedes a tag span followed by a raw `amp;`, and the spans themselves gone. */
  function DefusedText(norm: char -> string, prev: string, pieces: seq<Piece>): string
    decreases |pieces|
  {
    if |pieces| == 0 then Transduce(norm, prev)
    else Transduce(norm, prev) + AmpSuffix(prev) + DefusedText(norm, pieces[0].text, pieces[1..])
  }

  /** The events for one text chunk that precedes a tag span: nothing for an empty chunk,
      otherwise its normalization, followed by a raw `amp;` when the chunk ends in `&`. */
  function TextEvents(norm: char -> string, t: string): (r: seq<Event>)
    ensures r == [] <==> t == []
    ensures forall e :: e in r ==> e.Chunk?
    ensures TextOf(r) == Render(r) == Transduce(norm, t) + AmpSuffix(t)
  {
    if |t| == 0 then []
    else if t[|t| - 1] == '&' then
      var r := [Chunk(Transduce(norm, t)), Chunk("amp;")];
      assert r[1..] == [Chunk("amp;")] && r[1..][1..] == [];
      assert Render(r[1..]) == TextOf(r[1..]) == "amp;" by {
        assert "amp;" + [] == "amp;";
      }
      r
    else
      var r := [Chunk(Transduce(norm, t))];
      assert r[1..] == [];
      r
  }

  /** The lower-cased name of a matched tag when a whitelist is given, the pattern
      extracted a name, and the whitelist admits it. */
  function SafeName(safeTags: Option<set<string>>, t: TagMatch): (r: Option<string>)
    ensures r.Some? <==> safeTags.Some? && t.name.Some? && Lower(t.name.value) in safeTags.value
    ensures r.Some? ==> r.value == Lower(t.name.value) && r.value in safeTags.value && IsLower(r.value)
  {
    if safeTags.Some? && t.name.Some? && Lower(t.name.value) in safeTags.value
    then Some(Lower(t.name.value))
    else None
  }

  /** What one tag match emits and the open-tag stack after it. */
  datatype StepResult = StepResult(emitted: seq<Event>, open: seq<string>)

  function TagStep(safeTags: Option<set<string>>, t: TagMatch, open: seq<string>): (r: StepResult)
    // A tag writes no text.
    ensures Markers(r.emitted)
    // A tag the whitelist does not admit (or no whitelist, or no name) leaves no trace.
    ensures SafeName(safeTags, t).None? ==> r == StepResult([], open)
    // A whitelisted opener is emitted bare and lower-case, and tracked iff it is not void.
    ensures SafeName(safeTags, t).Some? && !IsCloseSpan(t.raw) ==>
      var n := SafeName(safeTags, t).value;
      && r.emitted == [Open(n)]
      && (n in HTML5_VOID_ELEMENTS ==> r.open == open)
      && (n !in HTML5_VOID_ELEMENTS ==> r.open == open + [n])
    // A whitelisted closer for a tag that is not open is dropped.
    ensures SafeName(safeTags, t).Some? && IsCloseSpan(t.raw) && SafeName(safeTags, t).value !in open ==>
      r == StepResult([], open)
    // A whitelisted closer for an open tag closes its last occurrence and everything
    // opened after it, innermost first, and pops exactly those entries.
    ensures SafeName(safeTags, t).Some? && IsCloseSpan(t.raw) && SafeName(safeTags, t).value in open ==>
      var n := SafeName(safeTags, t).value;
      && |r.open| < |open|
      && r.open == open[..|r.open|]
      && open[|r.open|] == n
      && n !in open[|r.open| + 1..]
      && r.emitted == CloseTags(open[|r.open|..])
  {
    match SafeName(safeTags, t)
    case None => StepResult([], open)
    case Some(n) =>
      if IsCloseSpan(t.raw) then
        var lastIdx := LastIndexOf(open, n);
        if lastIdx >= 0 then StepResult(CloseTags(open[lastIdx..]), open[..lastIdx])
        else StepResult([], open)
      else if n !in HTML5_VOID_ELEMENTS then StepResult([Open(n)], open + [n])
      else StepResult([Open(n)], open)
  }

  /** The main loop: `prev` is the text chunk before `pieces[0]`'s span (or the tail). */
  function Run(norm: char -> string, safeTags: Option<set<string>>, prev: string,
               pieces: seq<Piece>, open: seq<string>): (r: seq<Event>)
    // Whatever the whitelist and the open tags, the text written is the defused text.
    ensures TextOf(r) == DefusedText(norm, prev, pieces)
    decreases |pieces|
  {
    if |pieces| == 0 then
      var last := [Chunk(Transduce(norm, prev))];
      assert TextOf(last) == Transduce(norm, prev) by {
        assert last[1..] == [];
      }
      MarkersWriteNoText(CloseTags(open));
      TextOfAppend(last, CloseTags(open));
      last + CloseTags(open)
    else
      var step := TagStep(safeTags, pieces[0].tag, open);
      var te := TextEvents(norm, prev);
      var rest := Run(norm, safeTags, pieces[0].text, pieces[1..], step.open);
      MarkersWriteNoText(step.emitted);
      TextOfAppend(te, step.emitted);
      TextOfAppend(te + step.emitted, rest);
      assert TextOf(te) + [] == TextOf(te);
      te + step.emitted + rest
  }

  function StripEvents(norm: char -> string, safeTags: Option<set<string>>, sc: Scanned): (r: seq<Event>)
    // The text written is the defused text content of the scan, whatever the whitelist.
    ensures TextOf(r) == DefusedText(norm, sc.lead, sc.pieces)
  {
    if |sc.pieces| == 0 then
      var r := [Chunk(Transduce(norm, sc.lead))];
      assert r[1..] == [];
      r
    else Run(norm, safeTags, sc.lead, sc.pieces, [])
  }

  /** `stripHtmlTags(value, safeTags, rawSpacesAllowed)`, where `value == Source(sc)` and
      the two normalizers are the escaping conventions' NormalizeHtml and NormalizeHtmlNospace. */
  function StripHtmlTags(sc: Scanned, safeTags: Option<set<string>>, rawSpacesAllowed: bool,
                         normalizeHtml: char -> string, normalizeHtmlNospace: char -> string): (r: string)
    // With no tag-like span the whole input just goes through the selected normalizer.
    ensures sc.pieces == [] ==>
      r == Transduce(if rawSpacesAllowed then normalizeHtml else normalizeHtmlNospace, Source(sc))
  {
    var norm := if rawSpacesAllowed then normalizeHtml else normalizeHtmlNospace;
    var evs := StripEvents(norm, safeTags, sc);
    assert sc.pieces == [] ==> SpansAndTexts(sc.pieces) == [] && Source(sc) == sc.lead && Render(evs) == Transduce(norm, sc.lead);
    Render(evs)
  }
}

=== FILE: values.dfy ===
/** The values the sanitizers receive: plain data or content already ordained as safe for
    one kind of output context. */
module Values {

  /** The content kinds the sanitizers test for. */
  datatype ContentKind = HTML | JS | JS_STR_CHARS | URI | ATTRIBUTES | CSS | TEXT

  /** A template value: null, a number, a boolean, a string, or sanitized content that
      carries the kind of context it is already safe for. */
  datatype SoyValue =
    | NullData
    | NumberData(number: real)
    | BooleanData(flag: bool)
    | StringData(str: string)
    | SanitizedContent(content: string, kind: ContentKind)

  /** The trust gate: the value is sanitized content of exactly the given kind. */
  predicate IsSanitizedContentOfKind(v: SoyValue, kind: ContentKind) {
    v.SanitizedContent? && v.kind == kind
  }

  function BooleanString(b: bool): string {
    if b then "true" else "false"
  }

  /** The string form of a value; numbers are formatted by the data layer's formatter. */
  function CoerceToString(v: SoyValue, numberToString: real -> string): string {
    match v
    case NullData => "null"
    case NumberData(n) => numberToString(n)
    case BooleanData(b) => BooleanString(b)
    case StringData(s) => s
    case SanitizedContent(s, _) => s
  }

  /** Ordaining a string as safe content of a kind, then coercing it, gives the string back. */
  lemma OrdainedContentCoercesBack(s: string, kind: ContentKind, numberToString: real -> string)
    ensures IsSanitizedContentOfKind(SanitizedContent(s, kind), kind)
    ensures forall k :: k != kind ==> !IsSanitizedContentOfKind(SanitizedContent(s, kind), k)
    ensures CoerceToString(SanitizedContent(s, kind), numberToString) == s
  {
  }
}

/** The escaping conventions and the tag whitelist the sanitizers consult.  Their tables,
    patterns and fallback strings are not part of this model, so each is a field of
    `Conventions` that every sanitizer receives. */
module EscapingConventions {
  import TagBalancing

  /** A convention with a validity filter (`getValueFilter().matcher(s).find()`), its escape,
      and the fixed output that replaces a rejected value. */
  datatype Filter = Filter(valueFilter: string -> bool, escape: string -> string, innocuousOutput: string)

  datatype Conventions = Conventions(
    escapeHtml: string -> string,
    escapeHtmlNospace: string -> string,
    // The two HTML normalizers work character by character.
    normalizeHtml: char -> string,
    normalizeHtmlNospace: char -> string,
    escapeJsString: string -> string,
    escapeJsRegex: string -> string,
    escapeCssString: string -> string,
    normalizeUri: string -> string,
    // `CharEscapers.uriEscaper(false)`: percent-encoding of UTF-8.
    uriEscaper: string -> string,
    filterCssValue: Filter,
    filterNormalizeUri: Filter,
    filterImageDataUri: Filter,
    filterHtmlAttributes: Filter,
    filterHtmlElementName: Filter,
    // `EscapingConventions.INNOCUOUS_OUTPUT`.
    innocuousOutput: string,
    // `TagWhitelist.FORMATTING`.
    formattingTags: set<string>,
    // The matches of `HTML_TAG_CONTENT` in a string.
    htmlTagContent: string -> TagBalancing.Scanned,
    // The data layer's number-to-string coercion, and Java's `double` to string.
    coerceNumber: real -> string,
    doubleToString: real -> string)

  /** The tag matcher is sound: the scan of a string reassembles that string, and every
      span it reports runs from a `<` to a `>`. */
  ghost predicate MatcherSound(c: Conventions) {
    forall s :: TagBalancing.ScanOf(c.htmlTagContent(s), s)
  }
}
